=== FILE: README.md ===
# Cookbook and In-N-Out-Books APIs: route decisions in Dafny

This project models the request-handling logic of two small Express services. Each
exists in two versions:

- the **cookbook** service (`cookbook/src/app.js`, and the earlier `week-3/cookbook/src/app.js`);
- the **in-n-out-books** service (`in-n-out-books/src/app.js`, and the earlier
  `week-3/in-n-out-books/src/app.js`).

Every route is a pure function from its request to an `Outcome`. The request is the
`:id` or `:email` path parameter and the parsed JSON body. The `Outcome` is the response
(status and body) together with the collection as the route leaves it. Each week-3
handler is the same code as the later file's handler for that route, so one function
models both.

The pieces, bottom up:

- `Json`: parsed JSON values and the JavaScript operations the routes apply to them.
  - `Object.keys` includes the index keys `"0"`, `"1"`, … of arrays.
  - Property reads can throw on `undefined` and `null`.
  - Also modelled: truthiness, and `===`.
- `JsNumbers`: `parseInt` (ECMAScript section 19.2.5) and `Number(string)` (the
  StringToNumber grammar of ECMAScript section 7.1.4.1.1). Every route with an `:id`
  parameter except the cookbook's `DELETE` converts it with `parseInt(id)` and rejects `NaN`
  with `isNaN`; the `DELETE` passes `parseInt(id)` to `deleteOne` unguarded.
  The cookbook's GET then looks the id up again with `Number(id)`.
- `KeySet`: the exact-key check. The source writes it two ways:
  - `expected.every(k => received.includes(k))` with equal lengths;
  - `received.every(k => expected.includes(k))` with equal lengths.

  Both are proved to be set equality when the received keys are distinct. Object keys
  always are.
- `Http`: thrown errors (`createError`) and the cookbook's global error handler. The
  handler answers with status `err.status || 500` and the body `{type, status, message}`.
- `Collection`: the mock collections, as the routes use them.
  - `findOne` returns the first document whose field is `===` the value.
  - `insertOne` appends.
  - `updateOne` applies `$set` to the first match.
  - `deleteOne` removes the first match, or throws `"No matching item found"`.
- `Schema`: the JSON Schema keywords ajv checks for `securityQuestionsSchema`, and a proof
  that the schema accepts exactly `{securityQuestions: [{answer}, {answer}, {answer}]}`
  with string answers.
- `Request`: id probes, the key-set lemmas applied to request bodies, and the effect of an
  update by id.
- `Cookbook` and `Books`: the route handlers.
- `CookbookProperties` and `BooksProperties`: lemmas about how several calls combine.
  Examples: reading after creating, the two id conversions, and the positional answer check.

Store failures are inputs: `fault: Option<Error>` is what a store call throws, or
`fails: bool` when the route ignores the error's content. bcrypt's `hashSync` and
`compareSync` on strings are the function parameters `hash` and `compare`.

Where the code and the written description of the services differ, the model follows the code:

- `GET /api/books/:id` has no 404 branch. An unknown id still gives 200, with whatever `findOne` returns for a miss; the model takes that to be `null`.
- `PUT /api/books/:id` checks only for a truthy `title`, not an exact key set.
- The books service's 500 middleware calls the application object as a function. Its
  answer is therefore not a plain `{message, stack?}` body: it is `Unresolved`.
- The security-question route's catch block only logs. An error there leaves the request
  unanswered (`NoResponse`); it is not mapped to a JSON body.
- The cookbook's `DELETE` has no id guard. A non-numeric id gives 404, not 400.

## Model

| member | source | states |
|---|---|---|
| KeySet.ExpectedFormIsSetEquality | cookbook/src/app.js:137 | when the expected names are distinct, passing the `expected.every(includes) && same length` check implies the received key set equals the expected set; when the received keys are distinct too, the converse holds |
| KeySet.ReceivedFormIsSetEquality | cookbook/src/app.js:166-169 | when both lists are distinct, `received.every(includes) && same length` holds exactly when the two sets are equal |
| KeySet.FormsAgree | cookbook/src/app.js:222 | for distinct lists, the two ways the source writes the check accept the same inputs |
| KeySet.PermutationAccepted | in-n-out-books/src/app.js:145 | any reordering of the expected names passes both forms of the check |
| KeySet.ReceivedFormNeedsDistinctKeys | cookbook/src/app.js:162-169 | without distinct keys the received form is not set equality: `["email","email"]` passes against `["email","password"]` |
| Request.ExpectedFormChecksKeys | week-3/cookbook/src/app.js:133-136 | for a parsed body, the create routes' check accepts exactly the bodies whose `Object.keys` set is the expected set |
| Request.ReceivedFormChecksKeys | cookbook/src/app.js:218-222 | for a parsed body, the register and update check accepts exactly the bodies whose `Object.keys` set is the expected set |
| Request.IdProbe | cookbook/src/app.js:282 | the query `{id: parseInt(id)}` selects exactly the records whose id is the parsed integer, and no record at all when `parseInt` gives `NaN` |
| Request.NumberProbe | cookbook/src/app.js:95 | the query `{id: Number(id)}` selects exactly the records whose id is `Number(id)` when that is an integer, and no record when it is `NaN`, a fraction or infinite |
| Request.StoredIffFound | in-n-out-books/src/app.js:101 | `findOne({id: n})` finds a record exactly when some stored record has the integer id `n` |
| Request.FirstWithId | cookbook/src/app.js:228 | for a stored id, the position `updateOne` and `deleteOne` act on holds a record with that id, and no earlier record has it |
| Request.FindByNumber | cookbook/src/app.js:95-101 | `findOne({id: Number(id)})` returns a record exactly when `Number(id)` is an integer that some record stores as its id; that record has the id and is the first match |
| Request.DeleteById | cookbook/src/app.js:282 | `deleteOne({id: parseInt(id)})` throws "No matching item found" exactly when `parseInt` gives `NaN` or no record has the id; otherwise it removes the first record with that id and keeps the others in order |
| Request.UpdateById | in-n-out-books/src/app.js:204 | `updateOne({id: n}, {$set: body})` on a stored id reports a non-zero count; it rewrites only the first record with that id; each body key takes the body's value and every other property keeps its own |
| JsNumbers.DigitStringsAgree | cookbook/src/app.js:89-95 | on an all-digit id, `ParseInt` (the `parseInt(id)` guard) and `ToNumber` (the `Number(id)` lookup) both give the digits' decimal value |
| JsNumbers.ToNumberOfDigits | cookbook/src/app.js:95 | `ToNumber` of a string of decimal digits is the integer those digits spell, leading zeros included |
| JsNumbers.NegativeToNumber | cookbook/src/app.js:95 | `ToNumber` of `-` followed by decimal digits is the negated value of the digits |
| JsNumbers.ParseIntRoundTrip | cookbook/src/app.js:89 | `ParseInt` of an integer's decimal rendering, negative ones included, gives that integer back |
| JsNumbers.ToNumberRoundTrip | cookbook/src/app.js:95 | `ToNumber` of an integer's decimal rendering, negative ones included, gives that integer back |
| JsNumbers.TrailingLetterParseInt | cookbook/src/app.js:89 | `ParseInt` of digits followed by a letter (other than `e`, `x`, `o`, `b` in either case) and any rest stops at the letter and gives the digits' value |
| JsNumbers.TrailingLetterNumber | cookbook/src/app.js:95 | `ToNumber` of the same strings is `NaN`: the letter makes the whole string fail the numeric grammar |
| JsNumbers.TrailingLetterDiverges | cookbook/src/app.js:88-95 | for those strings the two conversions disagree: `ParseInt` gives the digits' value while `ToNumber` gives `NaN` |
| Http.HandleError | cookbook/src/app.js:301-309 | the status is the error's status when that is non-zero, and 500 otherwise; the body's keys are exactly `type`, `status`, `message` in that order, or `type`, `message` when the error has no status; they read `"error"`, the error's status and its message |
| Http.ErrorJson | cookbook/src/app.js:303-308 | the error body has exactly the keys `type`, `status`, `message`, with `status` absent when the error has none, and they read "error", the status and the message |
| Collection.FindOne | cookbook/src/app.js:95 | `findOne` finds nothing exactly when no document's field `===` the value; otherwise it returns the first matching stored document |
| Collection.SetFields | in-n-out-books/src/app.js:204 | after `$set`, each patched key reads the patch's value and every other key reads the old value; keys stay distinct |
| Collection.UpdateOne | cookbook/src/app.js:228-230 | the match count is 0 exactly when nothing matches, and then nothing changes; otherwise only the first match changes, as `$set` says |
| Collection.DeleteOne | cookbook/src/app.js:282-288 | `deleteOne` throws `"No matching item found"` exactly when nothing matches; otherwise it removes the first match and keeps the order of the rest |
| Collection.InsertThenFind | cookbook/src/app.js:146 | after `InsertOne` (`insertOne`, which appends), `findOne` returns the earlier first match if there is one, else the new document if it matches, else nothing |
| Json.PropAtIndex | in-n-out-books/src/app.js:182 | `items[i]` on an array is the element at `i` inside it and `undefined` past its end |
| Schema.AnswerSchemaIsShape | in-n-out-books/src/app.js:45-52 | a parsed value passes the item schema exactly when it is `{answer: <string>}` with no other key |
| Schema.SchemaIsShape | in-n-out-books/src/app.js:40-59 | a parsed body passes `securityQuestionsSchema` exactly when it is an object whose only key is `securityQuestions`, holding an array of exactly three such answer objects |
| Cookbook.GetRecipes | cookbook/src/app.js:73-82 | the listing is every stored recipe in order with 200, and the collection is unchanged; a store error goes to the error handler |
| Cookbook.GetRecipeById | cookbook/src/app.js:85-106 | `parseInt` NaN gives 400 "Input must be a number"; otherwise 200 is returned exactly when `Number(id)` is an integer and a recipe with that id is stored, and the body is the first such recipe; otherwise 404 "Recipe not found"; nothing is written |
| Cookbook.PostRecipe | cookbook/src/app.js:130-153 | a body whose key set is not {id, name, ingredients} gives 400 `{type:"error", status:400, message:"Bad Request"}`, and the collection is unchanged; otherwise the body is appended as sent and 201 echoes its id |
| Cookbook.Register | cookbook/src/app.js:157-206 | a key set other than {email, password} gives 400 "Bad Request"; an existing email gives 409 "Conflict" with no write, but a failed lookup counts as no duplicate; otherwise exactly `{email, password: hash(password)}` is inserted and 200 returns the body with "Registration successful" |
| Cookbook.NewUser | cookbook/src/app.js:195-198 | the stored user has exactly the keys `email` and `password`, in that order, holding the email and the hash |
| Cookbook.PutRecipe | cookbook/src/app.js:208-240 | the checks run in order: id guard (400), then key set {name, ingredients} (400 "Bad Request"), then the store; no recipe with that id gives 404 "Recipe not found"; otherwise 204, and only `name` and `ingredients` of the first such recipe change |
| Cookbook.SaveRecipe | cookbook/src/app.js:228-235 | after the checks, no recipe with the id gives 404 "Recipe not found"; otherwise 204, the first such recipe takes every key of the body, and the other recipes are unchanged |
| Cookbook.DeleteRecipe | cookbook/src/app.js:278-293 | a store error whose message is "No matching item found" gives 404 "Recipe not found", and any other goes to the error handler; a non-numeric or unknown id gives 404; otherwise 204, and the first recipe with that id is removed |
| CookbookProperties.DigitIdGet | cookbook/src/app.js:89-101 | for an all-digit id, reading succeeds exactly when a recipe with that value as id is stored, and returns the first one |
| CookbookProperties.DigitIdPut | cookbook/src/app.js:210-233 | for an all-digit id and a valid body, updating gives 204 exactly when a recipe with that id is stored |
| CookbookProperties.DigitIdDelete | cookbook/src/app.js:280-289 | for an all-digit id, deleting gives 204 exactly when a recipe with that id is stored |
| CookbookProperties.LetterSuffixDiverges | cookbook/src/app.js:88-95 | an id like `12abc` reads as 404 even when recipe 12 exists, while update and delete act exactly as for `12` |
| CookbookProperties.PostThenList | week-3/cookbook/src/app.js:72-81 | after an accepted POST, the listing is the earlier recipes followed by the new one |
| CookbookProperties.PostThenGet | week-3/cookbook/src/app.js:84-105 | a recipe posted with a new integer id is answered with 201 and that id, and reading that id returns the recipe |
| CookbookProperties.DuplicateIdAccepted | week-3/cookbook/src/app.js:145-147 | posting a recipe whose id is already used is still accepted with 201, and reading the id still returns the earlier recipe |
| CookbookProperties.DeleteThenGet | week-3/cookbook/src/app.js:154-169 | deleting the only recipe with id `n` gives 204, and reading `n` afterwards gives 404 "Recipe not found" |
| CookbookProperties.RegisterTwiceConflicts | cookbook/src/app.js:176-186 | once an email that is a string, number, boolean or `null` has been registered, registering it again gives 409 "Conflict" with no write, as long as the lookup works |
| CookbookProperties.ObjectEmailNeverConflicts | cookbook/src/app.js:176-198 | the email's type is not checked and `===` never equals a separately parsed object or array, so a body whose email is one is never a duplicate: it registers with 200, and the same body can register again afterwards |
| CookbookProperties.RegisterStoresHash | cookbook/src/app.js:189-198 | a successful registration appends one document whose keys are exactly `email` and `password`, with the hash, not the password, under `password` |
| Books.GetBooks | in-n-out-books/src/app.js:83-90 | every stored book with 200, or 500 "Error retrieving books" when the store throws; nothing is written |
| Books.GetBookById | in-n-out-books/src/app.js:93-106 | NaN id gives 400 "ID must be a number"; a store error gives 500 "Error retrieving book"; otherwise always 200, with `null` exactly when no book has that id and otherwise the first such book |
| Books.Login | in-n-out-books/src/app.js:109-134 | a falsy email or password gives 400; a store error, or a non-string password or hash, gives 500; an unknown user and a failed password check give the identical 401 "Unauthorized"; 200 exactly when the user exists and the password check passes |
| Books.PostBook | in-n-out-books/src/app.js:138-161 | a key set other than {id, title, author} gives 400 with the error body, and the collection is unchanged; otherwise the book is appended and 201 echoes its id |
| Books.PutBook | in-n-out-books/src/app.js:196-211 | NaN id gives 400 "ID must be a number"; a falsy title gives 400 "Bad Request: Missing Title"; no book with that id gives 404 "Book not found"; otherwise 204, and every key of the body, extra keys included, is written to the first such book |
| Books.Comparisons | in-n-out-books/src/app.js:181-183 | position `j` of the comparison list is true exactly when the stored answer at `j` reads as the submitted string `j` |
| Books.FirstFailure | in-n-out-books/src/app.js:181-183 | the position where `every` stops is the first comparison that is false, and none is returned exactly when every comparison from the start position on is true |
| Books.AnswerMatchesMeans | in-n-out-books/src/app.js:182 | a submitted string answer is `===` the stored value exactly when the stored value is that same string |
| Books.Every | in-n-out-books/src/app.js:181-185 | all three answers match exactly when every stored answer is the submitted string at the same position; the comparison throws exactly when the first failing position is one whose stored side cannot be read |
| Books.VerifySecurityQuestions | in-n-out-books/src/app.js:164-193 | a body that fails the schema gives 400 "Bad Request: Invalid security questions format", before the user is looked up; an unknown user gives 404 "User not found"; 200 exactly when the answers match by position, otherwise 401 "Unauthorized: Incorrect", or no response when the comparison throws; the store is never changed |
| BooksProperties.VerifyIsPositional | in-n-out-books/src/app.js:181-189 | for a user whose record holds three answers, a valid submission gets 200 exactly when it lists the same answers in the same order, and 401 otherwise |
| BooksProperties.ReorderedAnswersFail | in-n-out-books/src/app.js:181-186 | the correct answers with the first two swapped are refused with 401 |
| BooksProperties.PostThenGetBook | week-3/in-n-out-books/src/app.js:43-56 | a book posted with a new integer id is answered with 201 and that id, and reading that id returns the book |
| BooksProperties.PostThenListBooks | week-3/in-n-out-books/src/app.js:33-40 | after an accepted POST, the listing is the earlier books followed by the new one |
| BooksProperties.PutThenGetBook | in-n-out-books/src/app.js:196-207 | after a successful update of a stored id with a body that has no `id` or keeps the same id, reading that id returns a book carrying every field of the update body |
| BooksProperties.PutRenumbersBook | in-n-out-books/src/app.js:196-207 | with no key check, a body carrying a different `id` is accepted with 204 and renumbers the book: it is stored under the new id, and reading the old id, when no other book held it, answers 200 with `null` |

## Left out

- Express itself is not modelled: routing, the middleware chain, `express.urlencoded`, async scheduling and console logging. The routes are modelled from the parsed body onward.
- The HTML landing routes (cookbook/src/app.js:19-70, in-n-out-books/src/app.js:69-80) are not modelled: they are presentation only.
- The not-found middleware for unknown paths (cookbook/src/app.js:296-298, in-n-out-books/src/app.js:215-217) is not modelled, because there is no route left to decide.
- The mock database modules are not part of this model. The collection behaviour is the one the routes rely on:
  - a match is `===` on one field;
  - `insertOne` appends and reports the inserted document as `ops[0]`;
  - `updateOne` applies `$set`;
  - `deleteOne` throws "No matching item found" when nothing matches.
  - `findOne` resolves to `null` when nothing matches.
- Books.GetBookById: the body sent for an unknown id is the mock's `findOne` result for a miss. It is modelled as `null`. If the mock gave `undefined`, the service would send an empty 200 body, which the model does not cover.
- Collection.UpdateOne: `modifiedCount` is taken to equal `matchedCount`. An update that changes no value still counts as a modification.
- Store errors are inputs (`fault`, `fails`), not simulated. Assumed: an insert or update that throws writes nothing.
- bcrypt is left out: `hashSync` and `compareSync` on strings are the parameters `hash` and `compare`. What they compute, including the salt rounds, is not modelled. That both throw on a non-string argument is modelled.
- Cookbook.Register: when the password is not a string, the response is 500 with an unmodelled body. The error handler would show bcrypt's own "Illegal arguments" text there, and that text belongs to the library.
- ajv is not modelled. Schema interprets the seven keywords `securityQuestionsSchema` uses, with ajv's default options; no other keyword is modelled.
- The books service's 500 middleware (in-n-out-books/src/app.js:220-225, week-3/in-n-out-books/src/app.js:91-96) calls the application object as a function. What reaches the client then depends on Express internals, so the outcome is only `Unresolved`.
- The `stack` field of the cookbook's error body is left out. It is present only in development mode.
- Numbers are unbounded integers. Non-integer numbers inside JSON bodies are not modelled. `Number(id)` giving a fraction or `Infinity` is modelled only as a value no stored id equals.
- JsNumbers.ToNumber: computes the exact decimal value of the string, not the nearest double-precision number. It differs from JavaScript wherever rounding to a double changes the answer:
  - underflow: `Number("1e-400")` is `0` in JavaScript but a non-integer here;
  - a long fraction that rounds to an integer: `Number("1.00000000000000001")` is `1` in JavaScript but a non-integer here;
  - integers beyond 2^53 are kept exact instead of rounded, and `-0` is the integer 0.
- Cookbook.GetRecipeById: inherits those differences through `Number(id)`. For example, with a recipe of id 0 stored, `GET /api/recipes/1e-400` passes the `parseInt` guard (it reads 1) and the service answers 200 with recipe 0, but the model answers 404.
- Strings are sequences of Unicode code points, not UTF-16 code units.
- The commented-out duplicate routes (cookbook/src/app.js:110-128, 243-277) are not modelled: they are not live code.
- The reset-password tests (cookbook/test/app.spec.js:159-198) and the `DELETE /api/books` test (in-n-out-books/test/app.spec.js:78-80) call routes that do not exist in the services, so there is nothing to model.
- The week-3 routes have no functions of their own. They are the same text as the later versions, and the `Cookbook` and `Books` functions model both.

=== FILE: books.dfy ===
/** The books service's API routes: listing, reading, creating and updating books,
    logging in, and answering security questions. The week-3 version of the service has
    the same listing, reading and creating handlers. These routes answer most errors
    themselves; an error passed on with `next` reaches the service's broken 500
    middleware (`Http.Response.Unresolved`). */
module Books {
  import opened Wrappers
  import opened Json
  import opened JsNumbers
  import KeySet
  import opened Http
  import opened Collection
  import opened Request
  import opened Schema

  const BookKeys: seq<string> := ["id", "title", "author"]

  const IdMustBeANumber := "ID must be a number"
  const ErrorRetrievingBooks := "Error retrieving books"
  const ErrorRetrievingBook := "Error retrieving book"
  const MissingCredentials := "Bad Request: Missing email or password"
  const Unauthorized := "Unauthorized"
  const InternalServerError := "Internal Server Error"
  const AuthenticationSuccessful := "Authentication successful"
  const MissingTitle := "Bad Request: Missing Title"
  const BookNotFound := "Book not found"
  const InvalidFormat := "Bad Request: Invalid security questions format"
  const UserNotFound := "User not found"
  const IncorrectAnswers := "Unauthorized: Incorrect"
  const AnswersAccepted := "Security questions successfully answered"

  lemma BookKeySet()
    ensures KeySet.SetOf(BookKeys) == {"id", "title", "author"}
    ensures KeySet.Distinct(BookKeys)
  {
    assert BookKeys[0] in BookKeys && BookKeys[1] in BookKeys && BookKeys[2] in BookKeys;
  }

  /** `GET /api/books`: every stored book, or 500 when the collection throws. */
  function GetBooks(books: Collection, fails: bool): (o: Outcome)
    ensures o.store == books
    ensures fails ==> o.response == Response(500, JsonBody(Message(ErrorRetrievingBooks)))
    ensures !fails ==> o.response == Response(200, JsonBody(Arr(books.docs)))
  {
    if fails then Outcome(Response(500, JsonBody(Message(ErrorRetrievingBooks))), books)
    else Outcome(Response(200, JsonBody(Arr(books.docs))), books)
  }

  /** `GET /api/books/:id`: there is no 404 branch; an id no book has gives 200 and `null`. */
  function GetBookById(books: Collection, id: string, fails: bool): (o: Outcome)
    ensures o.store == books
    ensures ParseInt(id).None? ==> o.response == Response(400, JsonBody(Message(IdMustBeANumber)))
    ensures ParseInt(id).Some? && fails ==> o.response == Response(500, JsonBody(Message(ErrorRetrievingBook)))
    ensures ParseInt(id).Some? && !fails ==>
      && o.response.Response? && o.response.status == 200 && o.response.body.JsonBody?
      && (o.response.body.json == Null <==> !Stored(books, ParseInt(id).value))
      && (o.response.body.json != Null ==>
            && o.response.body.json in books.docs
            && HasId(o.response.body.json, ParseInt(id).value)
            && o.response.body.json == FindOne(books, "id", Value(Num(ParseInt(id).value))).value)
  {
    match ParseInt(id)
    case None => Outcome(Response(400, JsonBody(Message(IdMustBeANumber))), books)
    case Some(n) =>
      if fails then Outcome(Response(500, JsonBody(Message(ErrorRetrievingBook))), books)
      else
        StoredIffFound(books, n);
        match FindOne(books, "id", IdProbe(Some(n)))
        case Some(book) => Outcome(Response(200, JsonBody(book)), books)
        case None => Outcome(Response(200, JsonBody(Null)), books)
  }

  /** The user `findOne({ email })` returns and the password check `bcrypt.compareSync`
      makes succeed. `compare` is `compareSync` on two strings. */
  predicate PasswordAccepted(user: Json, password: Json, compare: (string, string) -> bool) {
    && password.Str?
    && Prop(user, "password").Some? && Prop(user, "password").value.Str?
    && compare(password.s, Prop(user, "password").value.s)
  }

  /** `compareSync` throws on a non-string password or stored hash. */
  predicate CompareThrows(user: Json, password: Json) {
    !password.Str? || Prop(user, "password").None? || !Prop(user, "password").value.Str?
  }

  /** `POST /api/login`. `fails` says the user lookup threw. */
  function Login(users: Collection, body: Json, fails: bool, compare: (string, string) -> bool): (o: Outcome)
    requires IsBody(body)
    ensures o.store == users
    ensures !Truthy(Prop(body, "email")) || !Truthy(Prop(body, "password")) ==>
      o.response == Response(400, JsonBody(Message(MissingCredentials)))
    ensures Truthy(Prop(body, "email")) && Truthy(Prop(body, "password")) ==>
      var user := FindOne(users, "email", Value(Prop(body, "email").value));
      var password := Prop(body, "password").value;
      && (fails ==> o.response == Response(500, JsonBody(Message(InternalServerError))))
      && (!fails && user.None? ==> o.response == Response(401, JsonBody(Message(Unauthorized))))
      && (!fails && user.Some? && CompareThrows(user.value, password) ==>
            o.response == Response(500, JsonBody(Message(InternalServerError))))
      && (!fails && user.Some? && !CompareThrows(user.value, password) ==>
            o.response == if PasswordAccepted(user.value, password, compare)
                          then Response(200, JsonBody(Message(AuthenticationSuccessful)))
                          else Response(401, JsonBody(Message(Unauthorized))))
    ensures o.response.Response?
    ensures o.response.status == 401 ==> o.response == Response(401, JsonBody(Message(Unauthorized)))
    ensures o.response.status == 200 <==>
      && Truthy(Prop(body, "email")) && Truthy(Prop(body, "password")) && !fails
      && FindOne(users, "email", Value(Prop(body, "email").value)).Some?
      && PasswordAccepted(FindOne(users, "email", Value(Prop(body, "email").value)).value, Prop(body, "password").value, compare)
  {
    var email := Prop(body, "email");
    var password := Prop(body, "password");
    if !Truthy(email) || !Truthy(password) then
      Outcome(Response(400, JsonBody(Message(MissingCredentials))), users)
    else if fails then Outcome(Response(500, JsonBody(Message(InternalServerError))), users)
    else match FindOne(users, "email", Value(email.value))
      case None => Outcome(Response(401, JsonBody(Message(Unauthorized))), users)
      case Some(user) =>
        if CompareThrows(user, password.value) then Outcome(Response(500, JsonBody(Message(InternalServerError))), users)
        else if !compare(password.value.s, Prop(user, "password").value.s) then
          Outcome(Response(401, JsonBody(Message(Unauthorized))), users)
        else Outcome(Response(200, JsonBody(Message(AuthenticationSuccessful))), users)
  }

  /** `POST /api/books`: a body whose keys are exactly `id`, `title` and `author` is stored
      and its id echoed with 201; any other body is refused with 400 before the collection
      is touched. `fails` says `insertOne` threw. */
  function PostBook(books: Collection, body: Json, fails: bool): (o: Outcome)
    requires IsBody(body)
    ensures KeySetOf(body) != {"id", "title", "author"} ==>
      o == Outcome(Response(400, JsonBody(BadRequestBody)), books)
    ensures KeySetOf(body) == {"id", "title", "author"} ==>
      && body.Obj? && Prop(body, "id").Some?
      && (fails ==> o == Outcome(Unresolved, books))
      && (!fails ==>
            o == Outcome(Response(201, JsonBody(Obj([Field("id", Prop(body, "id").value)]))), InsertOne(books, body)))
  {
    BookKeySet();
    ExpectedFormChecksKeys(body, BookKeys);
    if !KeySet.ExpectedAllReceived(BookKeys, Keys(body)) then
      Outcome(Response(400, JsonBody(BadRequestBody)), books)
    else
      NamedKeyMeansObject(body, "id");
      if fails then Outcome(Unresolved, books)
      else Outcome(Response(201, JsonBody(Obj([Field("id", Prop(body, "id").value)]))), InsertOne(books, body))
  }

  /** `PUT /api/books/:id`: id guard, then a truthy `title`, then `updateOne` with the whole
      body as `$set`; there is no key check, so any other keys are written too. `fails` says
      `updateOne` threw. */
  function PutBook(books: Collection, id: string, body: Json, fails: bool): (o: Outcome)
    requires IsBody(body)
    ensures ParseInt(id).None? ==> o == Outcome(Response(400, JsonBody(Message(IdMustBeANumber))), books)
    ensures ParseInt(id).Some? && !Truthy(Prop(body, "title")) ==>
      o == Outcome(Response(400, JsonBody(Message(MissingTitle))), books)
    ensures ParseInt(id).Some? && Truthy(Prop(body, "title")) && fails ==> o == Outcome(Unresolved, books)
    ensures ParseInt(id).Some? && Truthy(Prop(body, "title")) && !fails ==>
      var n := ParseInt(id).value;
      && (!Stored(books, n) ==> o == Outcome(Response(404, JsonBody(Message(BookNotFound))), books))
      && (Stored(books, n) ==>
            var i := FirstWithId(books, n);
            && o.response == Response(204, Empty)
            && |o.store.docs| == |books.docs|
            && (forall j :: 0 <= j < |books.docs| && j != i ==> o.store.docs[j] == books.docs[j])
            && o.store.docs[i].Obj?
            && forall k :: Prop(o.store.docs[i], k) == if k in KeySetOf(body) then Prop(body, k) else Prop(books.docs[i], k))
  {
    match ParseInt(id)
    case None => Outcome(Response(400, JsonBody(Message(IdMustBeANumber))), books)
    case Some(n) =>
      if !Truthy(Prop(body, "title")) then Outcome(Response(400, JsonBody(Message(MissingTitle))), books)
      else if fails then Outcome(Unresolved, books)
      else
        EntriesDistinct(body);
        StoredIffFound(books, n);
        var result := UpdateOne(books, "id", IdProbe(Some(n)), Entries(body));
        if result.modifiedCount == 0 then Outcome(Response(404, JsonBody(Message(BookNotFound))), books)
        else
          UpdateById(books, n, body);
          Outcome(Response(204, Empty), result.store)
  }

  /** `user.securityQuestions[i].answer`: reading a property of `undefined` or `null` throws. */
  function StoredAnswer(user: Json, i: nat): Access {
    match Member(Prop(user, "securityQuestions"), IndexKey(i))
    case Throws => Throws
    case Got(entry) => Member(entry, "answer")
  }

  /** `provided[j] === user.securityQuestions[j].answer`, false when the right side throws. */
  predicate AnswerMatches(provided: seq<string>, user: Json, j: nat)
    requires j < |provided|
  {
    ReadEquals(StoredAnswer(user, j), provided[j])
  }

  /** A string compared with `===` matches exactly the same string. */
  lemma AnswerMatchesMeans(provided: seq<string>, user: Json, j: nat)
    requires j < |provided|
    ensures AnswerMatches(provided, user, j) <==> StoredAnswer(user, j) == Got(Some(Str(provided[j])))
  {
    ReadEqualsMeans(StoredAnswer(user, j), provided[j]);
  }

  /** The outcome of each position's comparison, in order. */
  function Comparisons(provided: seq<string>, user: Json): (ok: seq<bool>)
    ensures |ok| == |provided|
    ensures forall j :: 0 <= j < |provided| ==> ok[j] == AnswerMatches(provided, user, j)
    ensures forall j :: 0 <= j < |provided| ==> (ok[j] <==> StoredAnswer(user, j) == Got(Some(Str(provided[j]))))
  {
    forall j | 0 <= j < |provided| {
      AnswerMatchesMeans(provided, user, j);
    }
    seq(|provided|, j requires 0 <= j < |provided| => AnswerMatches(provided, user, j))
  }

  /** The first position from `i` on whose comparison failed: where
      `securityQuestions.every(...)` stops, so no later position is read. */
  function FirstFailure(ok: seq<bool>, i: nat): (r: Option<nat>)
    requires i <= |ok|
    ensures r.None? <==> forall j :: i <= j < |ok| ==> ok[j]
    ensures r.Some? ==> i <= r.value < |ok| && !ok[r.value] && forall j :: i <= j < r.value ==> ok[j]
    decreases |ok| - i
  {
    if i == |ok| then None
    else if ok[i] then FirstFailure(ok, i + 1)
    else Some(i)
  }

  /** What `securityQuestions.every(...)` does: it throws, or reports whether every answer
      matched. */
  datatype Verdict = Threw | Answered(correct: bool)

  function Every(provided: seq<string>, user: Json): (r: Verdict)
    ensures r == Answered(true) <==>
      forall j :: 0 <= j < |provided| ==> StoredAnswer(user, j) == Got(Some(Str(provided[j])))
    ensures r == Threw <==>
      var stop := FirstFailure(Comparisons(provided, user), 0);
      stop.Some? && StoredAnswer(user, stop.value).Throws?
  {
    match FirstFailure(Comparisons(provided, user), 0)
    case None => Answered(true)
    case Some(j) => if StoredAnswer(user, j).Throws? then Threw else Answered(false)
  }

  /** `POST /api/users/:email/verify-security-question`. `fails` says the user lookup
      threw; the route's catch block only logs, so neither that nor an error while
      comparing answers produces a response. The route never writes. */
  function VerifySecurityQuestions(users: Collection, email: string, body: Json, fails: bool): (o: Outcome)
    requires IsBody(body)
    ensures o.store == users
    ensures !IsSecurityQuestionsBody(body) ==> o.response == Response(400, JsonBody(Message(InvalidFormat)))
    ensures IsSecurityQuestionsBody(body) && fails ==> o.response == NoResponse
    ensures IsSecurityQuestionsBody(body) && !fails ==>
      match FindOne(users, "email", Value(Str(email)))
      case None => o.response == Response(404, JsonBody(Message(UserNotFound)))
      case Some(user) =>
        && (o.response == NoResponse <==> Every(ProvidedAnswers(body), user) == Threw)
        && (o.response == Response(200, JsonBody(Message(AnswersAccepted))) <==>
              forall j :: 0 <= j < 3 ==> StoredAnswer(user, j) == Got(Some(Str(ProvidedAnswers(body)[j]))))
        && (o.response != NoResponse && o.response != Response(200, JsonBody(Message(AnswersAccepted))) ==>
              o.response == Response(401, JsonBody(Message(IncorrectAnswers))))
  {
    SchemaIsShape(body);
    if !Valid(SecurityQuestionsSchema, body) then Outcome(Response(400, JsonBody(Message(InvalidFormat))), users)
    else if fails then Outcome(NoResponse, users)
    else match FindOne(users, "email", Value(Str(email)))
      case None => Outcome(Response(404, JsonBody(Message(UserNotFound))), users)
      case Some(user) =>
        match Every(ProvidedAnswers(body), user)
        case Threw => Outcome(NoResponse, users)
        case Answered(false) => Outcome(Response(401, JsonBody(Message(IncorrectAnswers))), users)
        case Answered(true) => Outcome(Response(200, JsonBody(Message(AnswersAccepted))), users)
  }
}

=== FILE: books_properties.dfy ===
/** What the books routes promise together: the security-question check is positional,
    and a read sees what a create stored. */
module BooksProperties {
  import opened Wrappers
  import opened Json
  import opened JsNumbers
  import opened Http
  import opened Collection
  import opened Request
  import opened Schema
  import opened Books

  /** The user record keeps the answers `answers` at the first three positions of its
      `securityQuestions` array, each as `{ answer: <string>, ... }`. */
  predicate StoresAnswers(user: Json, answers: seq<string>) {
    && |answers| == 3
    && Prop(user, "securityQuestions").Some?
    && Prop(user, "securityQuestions").value.Arr?
    && |Prop(user, "securityQuestions").value.items| >= 3
    && forall i :: 0 <= i < 3 ==>
         var q := Prop(user, "securityQuestions").value.items[i];
         q.Obj? && Prop(q, "answer") == Some(Str(answers[i]))
  }

  lemma StoredAnswersRead(user: Json, answers: seq<string>, i: nat)
    requires StoresAnswers(user, answers) && i < 3
    ensures StoredAnswer(user, i) == Got(Some(Str(answers[i])))
  {
    PropAtIndex(Prop(user, "securityQuestions").value.items, i);
  }

  /** For a user whose record holds three answers, a well-formed submission is accepted
      with 200 exactly when it gives the same answers in the same order; otherwise it is
      refused with 401. Nothing is read past the answers, so the route always responds. */
  lemma VerifyIsPositional(users: Collection, email: string, body: Json, user: Json, answers: seq<string>)
    requires IsBody(body) && IsSecurityQuestionsBody(body)
    requires FindOne(users, "email", Value(Str(email))) == Some(user)
    requires StoresAnswers(user, answers)
    ensures VerifySecurityQuestions(users, email, body, false).response ==
      if ProvidedAnswers(body) == answers then Response(200, JsonBody(Message(AnswersAccepted)))
      else Response(401, JsonBody(Message(IncorrectAnswers)))
  {
    var provided := ProvidedAnswers(body);
    forall i | 0 <= i < 3
      ensures StoredAnswer(user, i) == Got(Some(Str(answers[i])))
    {
      StoredAnswersRead(user, answers, i);
    }
    if provided != answers {
      var k :| 0 <= k < 3 && provided[k] != answers[k];
      assert StoredAnswer(user, k) != Got(Some(Str(provided[k])));
    }
    assert Every(provided, user) != Threw;
  }

  /** The right answers in the wrong order are refused: swapping the first two of three
      different answers gives 401. */
  lemma ReorderedAnswersFail(users: Collection, email: string, body: Json, user: Json, answers: seq<string>)
    requires IsBody(body) && IsSecurityQuestionsBody(body)
    requires FindOne(users, "email", Value(Str(email))) == Some(user)
    requires StoresAnswers(user, answers)
    requires answers[0] != answers[1]
    requires ProvidedAnswers(body) == [answers[1], answers[0], answers[2]]
    ensures VerifySecurityQuestions(users, email, body, false).response == Response(401, JsonBody(Message(IncorrectAnswers)))
  {
    VerifyIsPositional(users, email, body, user, answers);
  }

  /** A book posted with a new integer id is what `GET /api/books/<that id>` returns. */
  lemma PostThenGetBook(books: Collection, body: Json, n: int)
    requires IsBody(body) && KeySetOf(body) == {"id", "title", "author"}
    requires Prop(body, "id") == Some(Num(n))
    requires !Stored(books, n)
    ensures PostBook(books, body, false).response == Response(201, JsonBody(Obj([Field("id", Num(n))])))
    ensures GetBookById(PostBook(books, body, false).store, IntToString(n), false).response ==
      Response(200, JsonBody(body))
  {
    ParseIntRoundTrip(n);
    StoredIffFound(books, n);
    InsertThenFind(books, body, "id", Value(Num(n)));
  }

  /** Whatever the collection held before, a book accepted by `POST /api/books` is listed
      last by `GET /api/books`. */
  lemma PostThenListBooks(books: Collection, body: Json)
    requires IsBody(body) && KeySetOf(body) == {"id", "title", "author"}
    ensures GetBooks(PostBook(books, body, false).store, false).response ==
      Response(200, JsonBody(Arr(books.docs + [body])))
  {
  }

  /** Rewriting the first record with id `n` so that it keeps that id leaves it the first. */
  lemma StillFirstMatch(before: seq<Json>, after: seq<Json>, n: int, i: nat)
    requires IsFirstMatch(before, "id", Value(Num(n)), i)
    requires |after| == |before|
    requires forall j :: 0 <= j < |before| && j != i ==> after[j] == before[j]
    requires HasId(after[i], n)
    ensures FirstMatch(after, "id", Value(Num(n))) == Some(i)
  {
    assert IsFirstMatch(after, "id", Value(Num(n)), i);
    FirstMatchUnique(after, "id", Value(Num(n)), i, FirstMatch(after, "id", Value(Num(n))).value);
  }

  /** An update that succeeds is seen by the next read of the same id: the book returned
      carries every field of the update body. */
  lemma PutThenGetBook(books: Collection, n: int, body: Json)
    requires IsBody(body) && Truthy(Prop(body, "title"))
    requires Stored(books, n)
    requires Prop(body, "id").None? || Prop(body, "id") == Some(Num(n))
    ensures PutBook(books, IntToString(n), body, false).response == Response(204, Empty)
    ensures var got := GetBookById(PutBook(books, IntToString(n), body, false).store, IntToString(n), false).response;
      && got.Response? && got.body.JsonBody?
      && forall k :: k in KeySetOf(body) ==> Prop(got.body.json, k) == Prop(body, k)
  {
    ParseIntRoundTrip(n);
    var after := PutBook(books, IntToString(n), body, false).store;
    var i := FirstWithId(books, n);
    StoredIffFound(books, n);
    assert Prop(after.docs[i], "id") == Some(Num(n));
    StillFirstMatch(books.docs, after.docs, n, i);
    var got := GetBookById(after, IntToString(n), false).response;
    assert got.body.json == after.docs[i];
  }

  /** Rewriting the only record with id `n` so that it carries id `m` leaves no record with
      id `n`, and one with id `m`. */
  lemma OnlyHolderRenumbered(before: seq<Json>, after: seq<Json>, i: nat, n: int, m: int)
    requires i < |before| == |after|
    requires forall j :: 0 <= j < |before| && j != i ==> after[j] == before[j] && !HasId(before[j], n)
    requires HasId(after[i], m) && m != n
    ensures !Stored(Collection(after), n) && Stored(Collection(after), m)
  {
    forall j | 0 <= j < |after|
      ensures !HasId(after[j], n)
    {
      if j != i {
        assert !HasId(before[j], n);
      }
    }
  }

  /** `PUT /api/books/:id` has no key check, so a body carrying another `id` renumbers the
      book: the update is accepted with 204, the book is then found under its new id, and
      reading the old id (held by no other book) answers 200 with `null`. */
  lemma PutRenumbersBook(books: Collection, n: int, m: int, body: Json)
    requires IsBody(body) && Truthy(Prop(body, "title"))
    requires Stored(books, n)
    requires forall j, k :: 0 <= j < k < |books.docs| && HasId(books.docs[j], n) ==> !HasId(books.docs[k], n)
    requires Prop(body, "id") == Some(Num(m)) && m != n
    ensures PutBook(books, IntToString(n), body, false).response == Response(204, Empty)
    ensures Stored(PutBook(books, IntToString(n), body, false).store, m)
    ensures GetBookById(PutBook(books, IntToString(n), body, false).store, IntToString(n), false).response ==
      Response(200, JsonBody(Null))
  {
    ParseIntRoundTrip(n);
    var after := PutBook(books, IntToString(n), body, false).store;
    assert "id" in KeySetOf(body);
    OnlyHolderRenumbered(books.docs, after.docs, FirstWithId(books, n), n, m);
  }
}

=== FILE: collection.dfy ===
/** The mock database collections behind the routes (`recipes`, `books`, `users`):
    an array of documents with `find`, `findOne`, `insertOne`, `updateOne` and
    `deleteOne`. The mock modules themselves are not part of this model; their
    behaviour is the one the routes rely on (see README). */
module Collection {
  import opened Wrappers
  import opened Json
  import opened Http
  import KeySet

  /** A collection: its documents in insertion order. */
  datatype Collection = Collection(docs: seq<Json>)

  /** What a route leaves behind: the response and the collection it used. */
  datatype Outcome = Outcome(response: Response, store: Collection)

  /** The right-hand side of a one-field query `{ field: value }`. `NaN` stands for any
      number no stored integer equals. */
  datatype Probe = Value(v: Json) | NaN

  /** `doc[field] === value` */
  predicate Matches(doc: Json, field: string, probe: Probe) {
    doc.Obj? &&
    match probe
    case Value(v) => StrictEqualsOpt(Prop(doc, field), Some(v))
    case NaN => false
  }

  predicate NoMatch(docs: seq<Json>, field: string, probe: Probe) {
    forall j :: 0 <= j < |docs| ==> !Matches(docs[j], field, probe)
  }

  predicate IsFirstMatch(docs: seq<Json>, field: string, probe: Probe, i: nat) {
    && i < |docs|
    && Matches(docs[i], field, probe)
    && forall j :: 0 <= j < i ==> !Matches(docs[j], field, probe)
  }

  /** The position of the first document the query matches. */
  function FirstMatch(docs: seq<Json>, field: string, probe: Probe): (r: Option<nat>)
    ensures r.None? <==> NoMatch(docs, field, probe)
    ensures r.Some? ==> IsFirstMatch(docs, field, probe, r.value)
  {
    if docs == [] then None
    else if Matches(docs[0], field, probe) then Some(0)
    else
      match FirstMatch(docs[1..], field, probe)
      case None => None
      case Some(i) => Some(i + 1)
  }

  /** `findOne({ field: value })`: the first matching document, if any. */
  function FindOne(c: Collection, field: string, probe: Probe): (r: Option<Json>)
    ensures r.None? <==> NoMatch(c.docs, field, probe)
    ensures r.Some? ==> r.value in c.docs && Matches(r.value, field, probe)
    ensures r.Some? ==> r.value == c.docs[FirstMatch(c.docs, field, probe).value]
  {
    match FirstMatch(c.docs, field, probe)
    case None => None
    case Some(i) => Some(c.docs[i])
  }

  /** `insertOne(doc)`: the document is appended as given. */
  function InsertOne(c: Collection, doc: Json): Collection {
    Collection(c.docs + [doc])
  }

  /** `$set` of one field: an existing key keeps its place, a new key goes last. */
  function Upsert(fields: seq<Field>, f: Field): (r: seq<Field>)
    ensures KeysOf(r) == if f.key in KeysOf(fields) then KeysOf(fields) else KeysOf(fields) + [f.key]
    ensures forall k :: Lookup(r, k) == if k == f.key then Some(f.value) else Lookup(fields, k)
  {
    if fields == [] then
      LookupCons(f, []);
      assert [f] + [] == [f];
      [f]
    else
      LookupCons(fields[0], fields[1..]);
      assert [fields[0]] + fields[1..] == fields;
      if fields[0].key == f.key then
        LookupCons(f, fields[1..]);
        [f] + fields[1..]
      else
        var rest := Upsert(fields[1..], f);
        LookupCons(fields[0], rest);
        [fields[0]] + rest
  }

  /** `{ $set: patch }` on one document's fields. */
  function SetFields(fields: seq<Field>, patch: seq<Field>): (r: seq<Field>)
    requires DistinctKeys(patch)
    ensures DistinctKeys(fields) ==> DistinctKeys(r)
    ensures forall k :: Lookup(r, k) == if k in KeysOf(patch) then Lookup(patch, k) else Lookup(fields, k)
    decreases |patch|
  {
    if patch == [] then fields
    else
      var head, tail := patch[0], patch[1..];
      assert patch == [head] + tail;
      LookupCons(head, tail);
      KeySet.DistinctCons(head.key, KeysOf(tail));
      var next := Upsert(fields, head);
      KeySet.DistinctSnoc(KeysOf(fields), head.key);
      SetFields(next, tail)
  }

  /** What `updateOne` reports. The mock's `modifiedCount` is taken to equal
      `matchedCount`: 0 exactly when no document matches. */
  datatype UpdateResult = UpdateResult(store: Collection, matchedCount: nat, modifiedCount: nat)

  /** `updateOne({ field: value }, { $set: patch })` */
  function UpdateOne(c: Collection, field: string, probe: Probe, patch: seq<Field>): (r: UpdateResult)
    requires DistinctKeys(patch)
    ensures r.matchedCount == r.modifiedCount
    ensures r.matchedCount == 0 <==> NoMatch(c.docs, field, probe)
    ensures r.matchedCount == 0 ==> r.store == c
    ensures r.matchedCount != 0 ==>
      var i := FirstMatch(c.docs, field, probe).value;
      && |r.store.docs| == |c.docs|
      && (forall j :: 0 <= j < |c.docs| && j != i ==> r.store.docs[j] == c.docs[j])
      && r.store.docs[i].Obj?
      && forall k :: Prop(r.store.docs[i], k) == if k in KeysOf(patch) then Lookup(patch, k) else Prop(c.docs[i], k)
  {
    match FirstMatch(c.docs, field, probe)
    case None => UpdateResult(c, 0, 0)
    case Some(i) =>
      var doc := c.docs[i];
      var fields := SetFields(doc.fields, patch);
      ObjectProps(doc);
      ObjectProps(Obj(fields));
      UpdateResult(Collection(c.docs[i := Obj(fields)]), 1, 1)
  }

  /** The message the mock's `deleteOne` throws when nothing matches. */
  const NoMatchingItem := "No matching item found"

  /** The documents without the one at `i`, the rest in their order. */
  function Without(docs: seq<Json>, i: nat): (r: seq<Json>)
    requires i < |docs|
    ensures |r| == |docs| - 1
    ensures forall j :: 0 <= j < i ==> r[j] == docs[j]
    ensures forall j :: i < j < |docs| ==> r[j - 1] == docs[j]
  {
    docs[..i] + docs[i + 1..]
  }

  /** `deleteOne({ field: value })`: removes the first matching document, or throws. */
  function DeleteOne(c: Collection, field: string, probe: Probe): (r: Result<Collection, Error>)
    ensures r.Failure? <==> NoMatch(c.docs, field, probe)
    ensures r.Failure? ==> r.error == Error(None, NoMatchingItem)
    ensures r.Success? ==> r.value.docs == Without(c.docs, FirstMatch(c.docs, field, probe).value)
  {
    match FirstMatch(c.docs, field, probe)
    case None => Failure(Error(None, NoMatchingItem))
    case Some(i) => Success(Collection(Without(c.docs, i)))
  }

  /** A document appended by `insertOne` is found by `findOne` exactly when no earlier
      document answers the same query. */
  lemma InsertThenFind(c: Collection, doc: Json, field: string, probe: Probe)
    ensures FindOne(InsertOne(c, doc), field, probe) ==
      if !NoMatch(c.docs, field, probe) then FindOne(c, field, probe)
      else if Matches(doc, field, probe) then Some(doc)
      else None
  {
    var d := InsertOne(c, doc).docs;
    assert d[..|c.docs|] == c.docs;
    var r := FirstMatch(d, field, probe);
    if !NoMatch(c.docs, field, probe) {
      var i := FirstMatch(c.docs, field, probe).value;
      assert IsFirstMatch(d, field, probe, i);
      FirstMatchUnique(d, field, probe, i, r.value);
    } else if Matches(doc, field, probe) {
      assert IsFirstMatch(d, field, probe, |c.docs|);
      FirstMatchUnique(d, field, probe, |c.docs|, r.value);
    } else {
      assert NoMatch(d, field, probe) by {
        forall j | 0 <= j < |d|
          ensures !Matches(d[j], field, probe)
        {
          if j < |c.docs| {
            assert d[j] == c.docs[j];
          }
        }
      }
    }
  }

  lemma FirstMatchUnique(docs: seq<Json>, field: string, probe: Probe, i: nat, j: nat)
    requires IsFirstMatch(docs, field, probe, i) && IsFirstMatch(docs, field, probe, j)
    ensures i == j
  {
  }
}

=== FILE: cookbook.dfy ===
/** The cookbook service's API routes: listing, reading, creating, updating and deleting
    recipes, and registering users. The week-3 version of the service has the same
    listing, reading, creating and deleting handlers. Every route leaves the decision of
    an error's status and body to the global error handler, `Http.HandleError`, except
    the create route, which answers a bad body itself. */
module Cookbook {
  import opened Wrappers
  import opened Json
  import opened JsNumbers
  import KeySet
  import opened Http
  import opened Collection
  import opened Request

  const RecipeKeys: seq<string> := ["id", "name", "ingredients"]
  const RecipeUpdateKeys: seq<string> := ["name", "ingredients"]
  const RegisterKeys: seq<string> := ["email", "password"]

  const InputMustBeANumber := "Input must be a number"
  const RecipeNotFound := "Recipe not found"
  const RegistrationSuccessful := "Registration successful"

  lemma ExpectedKeySets()
    ensures KeySet.SetOf(RecipeKeys) == {"id", "name", "ingredients"}
    ensures KeySet.SetOf(RecipeUpdateKeys) == {"name", "ingredients"}
    ensures KeySet.SetOf(RegisterKeys) == {"email", "password"}
    ensures KeySet.Distinct(RecipeKeys) && KeySet.Distinct(RecipeUpdateKeys) && KeySet.Distinct(RegisterKeys)
  {
    assert RecipeKeys[0] in RecipeKeys && RecipeKeys[1] in RecipeKeys && RecipeKeys[2] in RecipeKeys;
    assert RecipeUpdateKeys[0] in RecipeUpdateKeys && RecipeUpdateKeys[1] in RecipeUpdateKeys;
    assert RegisterKeys[0] in RegisterKeys && RegisterKeys[1] in RegisterKeys;
  }

  /** `GET /api/recipes`: every stored recipe, in order. */
  function GetRecipes(recipes: Collection, fault: Option<Error>): (o: Outcome)
    ensures o.store == recipes
    ensures fault.None? ==> o.response == Response(200, JsonBody(Arr(recipes.docs)))
    ensures fault.Some? ==> o.response == HandleError(fault.value)
  {
    match fault
    case Some(e) => Outcome(HandleError(e), recipes)
    case None => Outcome(Response(200, JsonBody(Arr(recipes.docs))), recipes)
  }

  /** `GET /api/recipes/:id`. The guard parses the id with `parseInt`, but the lookup
      converts it again with `Number`. */
  function GetRecipeById(recipes: Collection, id: string, fault: Option<Error>): (o: Outcome)
    ensures o.store == recipes
    ensures ParseInt(id).None? ==> o.response == HandleError(CreateError(400, InputMustBeANumber))
    ensures ParseInt(id).Some? && fault.Some? ==> o.response == HandleError(fault.value)
    ensures ParseInt(id).Some? && fault.None? ==>
      && o.response.Response?
      && (o.response.status == 200 <==> ToNumber(id).Integer? && Stored(recipes, ToNumber(id).value))
      && (o.response.status == 200 ==>
            && o.response.body.JsonBody?
            && o.response.body.json in recipes.docs
            && HasId(o.response.body.json, ToNumber(id).value)
            && o.response.body.json == FindOne(recipes, "id", NumberProbe(ToNumber(id))).value)
      && (o.response.status != 200 ==> o.response == Response(404, JsonBody(Message(RecipeNotFound))))
  {
    if ParseInt(id).None? then Outcome(HandleError(CreateError(400, InputMustBeANumber)), recipes)
    else match fault
      case Some(e) => Outcome(HandleError(e), recipes)
      case None =>
        match FindByNumber(recipes, ToNumber(id))
        case Some(recipe) => Outcome(Response(200, JsonBody(recipe)), recipes)
        case None => Outcome(Response(404, JsonBody(Message(RecipeNotFound))), recipes)
  }

  /** `POST /api/recipes`: a body whose keys are exactly `id`, `name` and `ingredients` is
      stored as sent and its id echoed with 201; any other body is refused with 400 before
      the collection is touched. There is no duplicate-id check. */
  function PostRecipe(recipes: Collection, body: Json, fault: Option<Error>): (o: Outcome)
    requires IsBody(body)
    ensures KeySetOf(body) != {"id", "name", "ingredients"} ==>
      o == Outcome(Response(400, JsonBody(BadRequestBody)), recipes)
    ensures KeySetOf(body) == {"id", "name", "ingredients"} ==>
      && body.Obj? && Prop(body, "id").Some?
      && (fault.Some? ==> o == Outcome(HandleError(fault.value), recipes))
      && (fault.None? ==>
            o == Outcome(Response(201, JsonBody(Obj([Field("id", Prop(body, "id").value)]))), InsertOne(recipes, body)))
  {
    ExpectedKeySets();
    ExpectedFormChecksKeys(body, RecipeKeys);
    if !KeySet.ExpectedAllReceived(RecipeKeys, Keys(body)) then
      Outcome(Response(400, JsonBody(BadRequestBody)), recipes)
    else
      NamedKeyMeansObject(body, "id");
      match fault
      case Some(e) => Outcome(HandleError(e), recipes)
      case None => Outcome(Response(201, JsonBody(Obj([Field("id", Prop(body, "id").value)]))), InsertOne(recipes, body))
  }

  /** The user document `POST /api/register` stores: the email and the password's hash. */
  function NewUser(email: Json, hashed: string): (u: Json)
    ensures u.Obj? && Keys(u) == ["email", "password"]
    ensures Prop(u, "email") == Some(email)
    ensures Prop(u, "password") == Some(Str(hashed))
  {
    var last := Field("password", Str(hashed));
    var u := Obj([Field("email", email), last]);
    ObjectProps(u);
    LookupCons(Field("email", email), [last]);
    assert [last] + [] == [last];
    LookupCons(last, []);
    u
  }

  /** `POST /api/register`. `findFails` says the duplicate lookup threw, which the route
      treats as "no duplicate"; `insertFault` is what `insertOne` throws, if anything;
      `hash` is `bcrypt.hashSync(_, 10)` on a string password. */
  function Register(users: Collection, body: Json, findFails: bool, insertFault: Option<Error>, hash: string -> string): (o: Outcome)
    requires IsBody(body)
    ensures KeySetOf(body) != {"email", "password"} ==>
      o == Outcome(HandleError(CreateError(400, "Bad Request")), users)
    ensures KeySetOf(body) == {"email", "password"} ==>
      && body.Obj? && Prop(body, "email").Some? && Prop(body, "password").Some?
      && var email := Prop(body, "email").value;
         var password := Prop(body, "password").value;
         var duplicate := !findFails && FindOne(users, "email", Value(email)).Some?;
         && (duplicate ==> o == Outcome(HandleError(CreateError(409, "Conflict")), users))
         && (!duplicate && !password.Str? ==> o == Outcome(Response(500, Unmodelled), users))
         && (!duplicate && password.Str? && insertFault.Some? ==> o == Outcome(HandleError(insertFault.value), users))
         && (!duplicate && password.Str? && insertFault.None? ==>
               && o.response == Response(200, JsonBody(Obj([Field("user", body), Field("message", Str(RegistrationSuccessful))])))
               && o.store == InsertOne(users, NewUser(email, hash(password.s))))
  {
    ExpectedKeySets();
    ReceivedFormChecksKeys(body, RegisterKeys);
    if !KeySet.ReceivedAllExpected(RegisterKeys, Keys(body)) then
      Outcome(HandleError(CreateError(400, "Bad Request")), users)
    else
      NamedKeyMeansObject(body, "email");
      NamedKeyMeansObject(body, "password");
      var email := Prop(body, "email").value;
      var password := Prop(body, "password").value;
      var duplicate := if findFails then None else FindOne(users, "email", Value(email));
      if duplicate.Some? then Outcome(HandleError(CreateError(409, "Conflict")), users)
      else if !password.Str? then Outcome(Response(500, Unmodelled), users)
      else match insertFault
        case Some(e) => Outcome(HandleError(e), users)
        case None =>
          Outcome(Response(200, JsonBody(Obj([Field("user", body), Field("message", Str(RegistrationSuccessful))]))),
                  InsertOne(users, NewUser(email, hash(password.s))))
  }

  /** The part of `PUT /api/recipes/:id` after the checks: `updateOne({ id: n }, { $set: body })`,
      then 404 when it matched nothing and 204 otherwise. */
  function SaveRecipe(recipes: Collection, n: int, body: Json): (o: Outcome)
    requires IsBody(body)
    ensures !Stored(recipes, n) ==> o == Outcome(HandleError(CreateError(404, RecipeNotFound)), recipes)
    ensures Stored(recipes, n) ==>
      var i := FirstWithId(recipes, n);
      && o.response == Response(204, Empty)
      && |o.store.docs| == |recipes.docs|
      && (forall j :: 0 <= j < |recipes.docs| && j != i ==> o.store.docs[j] == recipes.docs[j])
      && o.store.docs[i].Obj?
      && forall k :: Prop(o.store.docs[i], k) == if k in KeySetOf(body) then Prop(body, k) else Prop(recipes.docs[i], k)
  {
    EntriesDistinct(body);
    StoredIffFound(recipes, n);
    var result := UpdateOne(recipes, "id", IdProbe(Some(n)), Entries(body));
    if result.matchedCount == 0 then Outcome(HandleError(CreateError(404, RecipeNotFound)), recipes)
    else
      UpdateById(recipes, n, body);
      Outcome(Response(204, Empty), result.store)
  }

  /** `PUT /api/recipes/:id`: id guard, then key check, then `updateOne` with `$set`. */
  function PutRecipe(recipes: Collection, id: string, body: Json, fault: Option<Error>): (o: Outcome)
    requires IsBody(body)
    ensures ParseInt(id).None? ==> o == Outcome(HandleError(CreateError(400, InputMustBeANumber)), recipes)
    ensures ParseInt(id).Some? && KeySetOf(body) != {"name", "ingredients"} ==>
      o == Outcome(HandleError(CreateError(400, "Bad Request")), recipes)
    ensures ParseInt(id).Some? && KeySetOf(body) == {"name", "ingredients"} && fault.Some? ==>
      o == Outcome(HandleError(fault.value), recipes)
    ensures ParseInt(id).Some? && KeySetOf(body) == {"name", "ingredients"} && fault.None? ==>
      var n := ParseInt(id).value;
      && (!Stored(recipes, n) ==> o == Outcome(HandleError(CreateError(404, RecipeNotFound)), recipes))
      && (Stored(recipes, n) ==>
            var i := FirstWithId(recipes, n);
            && o.response == Response(204, Empty)
            && |o.store.docs| == |recipes.docs|
            && (forall j :: 0 <= j < |recipes.docs| && j != i ==> o.store.docs[j] == recipes.docs[j])
            && o.store.docs[i].Obj?
            && forall k :: Prop(o.store.docs[i], k) ==
                 if k in KeySetOf(body) then Prop(body, k) else Prop(recipes.docs[i], k))
  {
    match ParseInt(id)
    case None => Outcome(HandleError(CreateError(400, InputMustBeANumber)), recipes)
    case Some(n) =>
      ExpectedKeySets();
      ReceivedFormChecksKeys(body, RecipeUpdateKeys);
      if !KeySet.ReceivedAllExpected(RecipeUpdateKeys, Keys(body)) then
        Outcome(HandleError(CreateError(400, "Bad Request")), recipes)
      else match fault
        case Some(e) => Outcome(HandleError(e), recipes)
        case None => SaveRecipe(recipes, n, body)
  }

  /** `DELETE /api/recipes/:id`: no id guard; a `NaN` id simply matches nothing. `fault` is an
      error the collection throws for its own reasons; the route tells the two kinds apart
      only by the message. */
  function DeleteRecipe(recipes: Collection, id: string, fault: Option<Error>): (o: Outcome)
    ensures fault.Some? && fault.value.message == NoMatchingItem ==>
      o == Outcome(HandleError(CreateError(404, RecipeNotFound)), recipes)
    ensures fault.Some? && fault.value.message != NoMatchingItem ==>
      o == Outcome(HandleError(fault.value), recipes)
    ensures fault.None? && (ParseInt(id).None? || !Stored(recipes, ParseInt(id).value)) ==>
      o == Outcome(HandleError(CreateError(404, RecipeNotFound)), recipes)
    ensures fault.None? && ParseInt(id).Some? && Stored(recipes, ParseInt(id).value) ==>
      var i := FirstWithId(recipes, ParseInt(id).value);
      && o.response == Response(204, Empty)
      && o.store.docs == Without(recipes.docs, i)
  {
    var result := match fault
      case Some(e) => Failure(e)
      case None => DeleteById(recipes, ParseInt(id));
    match result
    case Failure(e) =>
      if e.message == NoMatchingItem then Outcome(HandleError(CreateError(404, RecipeNotFound)), recipes)
      else Outcome(HandleError(e), recipes)
    case Success(store) => Outcome(Response(204, Empty), store)
  }
}

=== FILE: cookbook_properties.dfy ===
/** What the cookbook routes promise together: how the two id conversions relate, and
    what a read sees after a write. */
module CookbookProperties {
  import opened Wrappers
  import opened Digits
  import opened Json
  import opened JsNumbers
  import opened Http
  import opened Collection
  import opened Request
  import opened Cookbook

  /** For an all-digit id the `parseInt` guard and the `Number` lookup agree, so reading
      succeeds exactly when a recipe with the digits' value as id is stored, and returns
      the first one: the record updating and deleting act on. */
  lemma DigitIdGet(recipes: Collection, s: string)
    requires IsDigitString(s)
    ensures GetRecipeById(recipes, s, None).response.status == 200 <==> Stored(recipes, ValueOf(s, 10))
    ensures Stored(recipes, ValueOf(s, 10)) ==>
      GetRecipeById(recipes, s, None).response.body ==
        JsonBody(recipes.docs[FirstWithId(recipes, ValueOf(s, 10))])
  {
    DigitStringsAgree(s);
    StoredIffFound(recipes, ValueOf(s, 10));
  }

  /** With an all-digit id and a valid body, updating succeeds exactly when reading does. */
  lemma DigitIdPut(recipes: Collection, s: string, body: Json)
    requires IsDigitString(s)
    requires IsBody(body) && KeySetOf(body) == {"name", "ingredients"}
    ensures PutRecipe(recipes, s, body, None).response == Response(204, Empty) <==> Stored(recipes, ValueOf(s, 10))
  {
    DigitStringsAgree(s);
    var r := PutRecipe(recipes, s, body, None).response;
    if !Stored(recipes, ValueOf(s, 10)) {
      assert r == HandleError(CreateError(404, RecipeNotFound));
    }
  }

  /** With an all-digit id, deleting succeeds exactly when reading does. */
  lemma DigitIdDelete(recipes: Collection, s: string)
    requires IsDigitString(s)
    ensures DeleteRecipe(recipes, s, None).response == Response(204, Empty) <==> Stored(recipes, ValueOf(s, 10))
  {
    DigitStringsAgree(s);
    var r := DeleteRecipe(recipes, s, None).response;
    if !Stored(recipes, ValueOf(s, 10)) {
      assert r == HandleError(CreateError(404, RecipeNotFound));
    }
  }

  lemma LetterSuffixGet(recipes: Collection, s: string, c: char, t: string)
    requires IsDigitString(s)
    requires ('a' <= c <= 'z' || 'A' <= c <= 'Z') && c !in "eExXoObB"
    ensures GetRecipeById(recipes, s + [c] + t, None).response == Response(404, JsonBody(Message(RecipeNotFound)))
  {
    TrailingLetterDiverges(s, c, t);
  }

  lemma LetterSuffixPut(recipes: Collection, s: string, c: char, t: string, body: Json)
    requires IsDigitString(s)
    requires ('a' <= c <= 'z' || 'A' <= c <= 'Z') && c !in "eExXoObB"
    requires IsBody(body)
    ensures PutRecipe(recipes, s + [c] + t, body, None) == PutRecipe(recipes, s, body, None)
  {
    TrailingLetterDiverges(s, c, t);
    DigitStringsAgree(s);
  }

  lemma LetterSuffixDelete(recipes: Collection, s: string, c: char, t: string)
    requires IsDigitString(s)
    requires ('a' <= c <= 'z' || 'A' <= c <= 'Z') && c !in "eExXoObB"
    ensures DeleteRecipe(recipes, s + [c] + t, None) == DeleteRecipe(recipes, s, None)
  {
    TrailingLetterDiverges(s, c, t);
    DigitStringsAgree(s);
  }

  /** An id such as `12abc` passes the guard as 12, so updating and deleting act on
      record 12, while reading converts it to `NaN` and answers 404 even when record 12
      exists. */
  lemma LetterSuffixDiverges(recipes: Collection, s: string, c: char, t: string, body: Json)
    requires IsDigitString(s)
    requires ('a' <= c <= 'z' || 'A' <= c <= 'Z') && c !in "eExXoObB"
    requires IsBody(body)
    ensures GetRecipeById(recipes, s + [c] + t, None).response == Response(404, JsonBody(Message(RecipeNotFound)))
    ensures PutRecipe(recipes, s + [c] + t, body, None) == PutRecipe(recipes, s, body, None)
    ensures DeleteRecipe(recipes, s + [c] + t, None) == DeleteRecipe(recipes, s, None)
  {
    LetterSuffixGet(recipes, s, c, t);
    LetterSuffixPut(recipes, s, c, t, body);
    LetterSuffixDelete(recipes, s, c, t);
  }

  /** Whatever the collection held before, a recipe accepted by `POST /api/recipes` is
      listed last by `GET /api/recipes`. */
  lemma PostThenList(recipes: Collection, body: Json)
    requires IsBody(body) && KeySetOf(body) == {"id", "name", "ingredients"}
    ensures GetRecipes(PostRecipe(recipes, body, None).store, None).response ==
      Response(200, JsonBody(Arr(recipes.docs + [body])))
  {
  }

  /** A recipe posted with a new integer id is what `GET /api/recipes/<that id>` returns. */
  lemma PostThenGet(recipes: Collection, body: Json, n: int)
    requires IsBody(body) && KeySetOf(body) == {"id", "name", "ingredients"}
    requires Prop(body, "id") == Some(Num(n))
    requires !Stored(recipes, n)
    ensures PostRecipe(recipes, body, None).response == Response(201, JsonBody(Obj([Field("id", Num(n))])))
    ensures GetRecipeById(PostRecipe(recipes, body, None).store, IntToString(n), None).response ==
      Response(200, JsonBody(body))
  {
    ParseIntRoundTrip(n);
    ToNumberRoundTrip(n);
    StoredIffFound(recipes, n);
    InsertThenFind(recipes, body, "id", Value(Num(n)));
  }

  /** Posting a second recipe with an id already in use is accepted, and reading that id
      still returns the earlier recipe. */
  lemma DuplicateIdAccepted(recipes: Collection, body: Json, n: int)
    requires IsBody(body) && KeySetOf(body) == {"id", "name", "ingredients"}
    requires Prop(body, "id") == Some(Num(n))
    requires Stored(recipes, n)
    ensures PostRecipe(recipes, body, None).response.status == 201
    ensures GetRecipeById(PostRecipe(recipes, body, None).store, IntToString(n), None).response ==
      GetRecipeById(recipes, IntToString(n), None).response
  {
    ParseIntRoundTrip(n);
    ToNumberRoundTrip(n);
    StoredIffFound(recipes, n);
    InsertThenFind(recipes, body, "id", Value(Num(n)));
  }

  /** Removing the one record with id `n` leaves no record with that id. */
  lemma RemovedOnlyHolder(docs: seq<Json>, n: int, i: nat)
    requires i < |docs| && HasId(docs[i], n)
    requires forall j :: 0 <= j < |docs| && j != i ==> !HasId(docs[j], n)
    ensures !Stored(Collection(Without(docs, i)), n)
  {
    var rest := Without(docs, i);
    forall j | 0 <= j < |rest|
      ensures !HasId(rest[j], n)
    {
      if j < i {
        assert rest[j] == docs[j];
      } else {
        assert rest[j] == docs[j + 1];
      }
    }
  }

  /** Once the only recipe with id `n` is deleted, reading `n` answers 404. */
  lemma DeleteThenGet(recipes: Collection, n: int)
    requires Stored(recipes, n)
    requires forall i, j :: 0 <= i < j < |recipes.docs| && HasId(recipes.docs[i], n) ==> !HasId(recipes.docs[j], n)
    ensures DeleteRecipe(recipes, IntToString(n), None).response == Response(204, Empty)
    ensures GetRecipeById(DeleteRecipe(recipes, IntToString(n), None).store, IntToString(n), None).response ==
      Response(404, JsonBody(Message(RecipeNotFound)))
  {
    ParseIntRoundTrip(n);
    ToNumberRoundTrip(n);
    var i := FirstWithId(recipes, n);
    IdQueryMatches(recipes.docs[i], n);
    forall j | 0 <= j < |recipes.docs| && j != i
      ensures !HasId(recipes.docs[j], n)
    {
      IdQueryMatches(recipes.docs[j], n);
    }
    RemovedOnlyHolder(recipes.docs, n, i);
  }

  /** The conditions under which `POST /api/register` succeeds when the duplicate lookup
      works and the insert does not throw: the right keys, a string password, and no user
      with that email yet. */
  predicate CanRegister(users: Collection, body: Json)
    requires IsBody(body)
  {
    && KeySetOf(body) == {"email", "password"}
    && Prop(body, "email").Some? && Prop(body, "password").Some?
    && Prop(body, "password").value.Str?
    && FindOne(users, "email", Value(Prop(body, "email").value)).None?
  }

  /** The user just stored is what the next lookup of its email finds, when the email is a
      primitive (`===` compares those by value). */
  lemma RegisteredIsFound(users: Collection, email: Json, hashed: string)
    requires !email.Arr? && !email.Obj?
    requires FindOne(users, "email", Value(email)).None?
    ensures FindOne(InsertOne(users, NewUser(email, hashed)), "email", Value(email)) == Some(NewUser(email, hashed))
  {
    assert Matches(NewUser(email, hashed), "email", Value(email));
    InsertThenFind(users, NewUser(email, hashed), "email", Value(email));
  }

  /** A registered email that is a primitive (a string, number, boolean or `null`) cannot be
      registered again while the duplicate lookup works. */
  lemma RegisterTwiceConflicts(users: Collection, first: Json, second: Json, hash: string -> string)
    requires IsBody(first) && CanRegister(users, first)
    requires IsBody(second) && KeySetOf(second) == {"email", "password"}
    requires Prop(first, "email") == Prop(second, "email")
    requires !Prop(first, "email").value.Arr? && !Prop(first, "email").value.Obj?
    ensures Register(users, first, false, None, hash).response.status == 200
    ensures Register(Register(users, first, false, None, hash).store, second, false, None, hash) ==
      Outcome(HandleError(CreateError(409, "Conflict")), Register(users, first, false, None, hash).store)
  {
    var email := Prop(first, "email").value;
    var password := Prop(first, "password").value;
    var stored := NewUser(email, hash(password.s));
    assert Register(users, first, false, None, hash).store == InsertOne(users, stored);
    RegisteredIsFound(users, email, hash(password.s));
  }

  /** A query by an array or object value matches no stored document. */
  lemma IdentityNeverMatches(docs: seq<Json>, field: string, v: Json)
    requires v.Arr? || v.Obj?
    ensures NoMatch(docs, field, Value(v))
  {
  }

  /** The email's type is never checked, and `===` never equals a separately parsed object or
      array: an email that is one is never a duplicate, so it can be registered any number
      of times. */
  lemma ObjectEmailNeverConflicts(users: Collection, body: Json, hash: string -> string)
    requires IsBody(body) && KeySetOf(body) == {"email", "password"}
    requires Prop(body, "email").Some? && (Prop(body, "email").value.Arr? || Prop(body, "email").value.Obj?)
    requires Prop(body, "password").Some? && Prop(body, "password").value.Str?
    ensures CanRegister(users, body)
    ensures Register(users, body, false, None, hash).response.status == 200
    ensures CanRegister(Register(users, body, false, None, hash).store, body)
  {
    var email := Prop(body, "email").value;
    var password := Prop(body, "password").value;
    IdentityNeverMatches(users.docs, "email", email);
    var after := InsertOne(users, NewUser(email, hash(password.s)));
    assert Register(users, body, false, None, hash).store == after;
    IdentityNeverMatches(after.docs, "email", email);
  }

  /** A successful registration stores exactly the email and the hash: the plaintext
      password is kept only if the hash function returns it unchanged. */
  lemma RegisterStoresHash(users: Collection, body: Json, hash: string -> string)
    requires IsBody(body) && CanRegister(users, body)
    ensures Register(users, body, false, None, hash).response.status == 200
    ensures var after := Register(users, body, false, None, hash).store;
      && |after.docs| == |users.docs| + 1
      && after.docs[..|users.docs|] == users.docs
      && Keys(after.docs[|users.docs|]) == ["email", "password"]
      && Prop(after.docs[|users.docs|], "email") == Prop(body, "email")
      && Prop(after.docs[|users.docs|], "password") == Some(Str(hash(Prop(body, "password").value.s)))
  {
    var email := Prop(body, "email").value;
    var password := Prop(body, "password").value;
    var doc := NewUser(email, hash(password.s));
    var after := Register(users, body, false, None, hash).store;
    assert after == InsertOne(users, doc);
    assert after.docs[..|users.docs|] == users.docs;
    assert Keys(doc) == ["email", "password"];
  }
}

=== FILE: digits.dfy ===
/** Digit strings: their values in a radix, their longest leading run, and the
    canonical decimal rendering of a natural number. */
module Digits {

  /** The value of a digit character in any radix up to 16; 16 for any other character. */
  function DigitValue(c: char): (d: nat)
    ensures d <= 16
    ensures '0' <= c <= '9' ==> d == c as int - '0' as int
  {
    if '0' <= c <= '9' then c as int - '0' as int
    else if 'a' <= c <= 'f' then c as int - 'a' as int + 10
    else if 'A' <= c <= 'F' then c as int - 'A' as int + 10
    else 16
  }

  predicate IsDigitIn(c: char, radix: nat) {
    DigitValue(c) < radix
  }

  predicate IsDecimalDigit(c: char) {
    '0' <= c <= '9'
  }

  predicate AllDigitsIn(s: string, radix: nat) {
    forall i :: 0 <= i < |s| ==> IsDigitIn(s[i], radix)
  }

  /** The number a string of digits denotes, most significant digit first. */
  function ValueOf(s: string, radix: nat): nat
  {
    if s == [] then 0 else ValueOf(s[..|s| - 1], radix) * radix + DigitValue(s[|s| - 1])
  }

  /** The longest prefix of `s` made of radix digits. */
  function LeadingDigits(s: string, radix: nat): (p: string)
    ensures |p| <= |s| && p == s[..|p|]
    ensures AllDigitsIn(p, radix)
    ensures |p| < |s| ==> !IsDigitIn(s[|p|], radix)
  {
    if s != [] && IsDigitIn(s[0], radix) then [s[0]] + LeadingDigits(s[1..], radix) else []
  }

  function DecimalChar(d: nat): (c: char)
    requires d < 10
    ensures IsDecimalDigit(c) && DigitValue(c) == d
  {
    ('0' as int + d) as char
  }

  /** The decimal rendering of `n` without leading zeros, as `String(n)` gives it. */
  function NatToString(n: nat): (s: string)
    ensures |s| >= 1
    ensures forall i :: 0 <= i < |s| ==> IsDecimalDigit(s[i])
    ensures ValueOf(s, 10) == n
    ensures |s| > 1 ==> s[0] != '0'
  {
    if n < 10 then [DecimalChar(n)]
    else
      var prefix := NatToString(n / 10);
      var s := prefix + [DecimalChar(n % 10)];
      assert s[..|s| - 1] == prefix;
      s
  }

  lemma NatToStringInjective(m: nat, n: nat)
    ensures NatToString(m) == NatToString(n) <==> m == n
  {
    assert ValueOf(NatToString(m), 10) == m;
    assert ValueOf(NatToString(n), 10) == n;
  }

  /** Every digit string is all digits in radix 10 only if its characters are '0'..'9'. */
  lemma DecimalDigitsAreRadixTen(s: string)
    requires forall i :: 0 <= i < |s| ==> IsDecimalDigit(s[i])
    ensures AllDigitsIn(s, 10)
  {
  }
}

=== FILE: http.dfy ===
/** Responses, thrown errors, and the cookbook's global error handler
    (`res.status(err.status || 500)` with a `{type, status, message}` body). */
module Http {
  import opened Wrappers
  import opened Json

  /** A thrown JavaScript error: `createError(status, message)` sets both fields; an error
      from elsewhere may carry no `status`. */
  datatype Error = Error(status: Option<int>, message: string)

  function CreateError(status: int, message: string): Error {
    Error(Some(status), message)
  }

  /** A response body: JSON, nothing (`send()` after 204), or one produced by code outside
      this model (a library's exception text inside Express's error page). */
  datatype Body = JsonBody(json: Json) | Empty | Unmodelled

  /** What the client receives. `NoResponse`: the handler caught an error and only logged it,
      so the request is never answered. `Unresolved`: the error reached the books service's
      500 middleware, which calls the application object as a function; what then reaches
      the client is decided by Express internals this model leaves out. */
  datatype Response = Response(status: int, body: Body) | NoResponse | Unresolved

  /** `{ message: text }` */
  function Message(text: string): Json {
    Obj([Field("message", Str(text))])
  }

  /** The fields of `{ type: "error", status, message }`, where `JSON.stringify` drops an
      undefined `status`. */
  function ErrorFields(status: Option<int>, message: string): seq<Field> {
    var last := Field("message", Str(message));
    [Field("type", Str("error"))] + if status.Some? then [Field("status", Num(status.value)), last] else [last]
  }

  /** With a status, the error fields are `type`, `status`, `message`, each read back. */
  lemma StatusFieldsRead(status: int, message: string)
    ensures KeysOf(ErrorFields(Some(status), message)) == ["type", "status", "message"]
    ensures Lookup(ErrorFields(Some(status), message), "type") == Some(Str("error"))
    ensures Lookup(ErrorFields(Some(status), message), "status") == Some(Num(status))
    ensures Lookup(ErrorFields(Some(status), message), "message") == Some(Str(message))
  {
    var last := Field("message", Str(message));
    assert [last] + [] == [last];
    LookupCons(last, []);
    LookupCons(Field("status", Num(status)), [last]);
    LookupCons(Field("type", Str("error")), [Field("status", Num(status)), last]);
  }

  /** Without a status, the error fields are `type`, `message`, each read back, and no `status`. */
  lemma NoStatusFieldsRead(message: string)
    ensures KeysOf(ErrorFields(None, message)) == ["type", "message"]
    ensures Lookup(ErrorFields(None, message), "type") == Some(Str("error"))
    ensures Lookup(ErrorFields(None, message), "status") == None
    ensures Lookup(ErrorFields(None, message), "message") == Some(Str(message))
  {
    var last := Field("message", Str(message));
    assert [last] + [] == [last];
    LookupCons(last, []);
    LookupCons(Field("type", Str("error")), [last]);
  }

  /** `{ type: "error", status, message }`: exactly those keys in that order, `status` only
      when the error has one. */
  function ErrorJson(status: Option<int>, message: string): (j: Json)
    ensures j.Obj?
    ensures Prop(j, "type") == Some(Str("error"))
    ensures Prop(j, "message") == Some(Str(message))
    ensures Prop(j, "status") == if status.Some? then Some(Num(status.value)) else None
    ensures Keys(j) == if status.Some? then ["type", "status", "message"] else ["type", "message"]
  {
    if status.Some? then StatusFieldsRead(status.value, message); Obj(ErrorFields(status, message))
    else NoStatusFieldsRead(message); Obj(ErrorFields(status, message))
  }

  /** The body the create routes answer a bad request with themselves:
      `{ type: "error", status: 400, message: "Bad Request" }`. */
  const BadRequestBody := ErrorJson(Some(400), "Bad Request")

  /** The cookbook's last middleware: the error's own status when it has a non-zero one,
      500 otherwise, and the error's status and message echoed in the body. */
  function HandleError(e: Error): (r: Response)
    ensures r.Response? && r.body.JsonBody?
    ensures r.status == 500 <==> e.status.None? || e.status == Some(0) || e.status == Some(500)
    ensures e.status.Some? && e.status.value != 0 ==> r.status == e.status.value
    ensures Prop(r.body.json, "type") == Some(Str("error"))
    ensures Prop(r.body.json, "message") == Some(Str(e.message))
    ensures Prop(r.body.json, "status") == (if e.status.Some? then Some(Num(e.status.value)) else None)
    ensures Keys(r.body.json) == if e.status.Some? then ["type", "status", "message"] else ["type", "message"]
  {
    var status := if e.status.Some? && e.status.value != 0 then e.status.value else 500;
    Response(status, JsonBody(ErrorJson(e.status, e.message)))
  }
}

=== FILE: js_numbers.dfy ===
/** The two string-to-number conversions the routes apply to `req.params.id`:
    `parseInt(s)` (no radix argument) and `Number(s)`, following the ECMAScript
    language specification, section 19.2.5 (parseInt) and section 7.1.4.1.1
    (StringToNumber). Numbers are exact integers here; see README, "Left out". */
module JsNumbers {
  import opened Wrappers
  import opened Digits

  /** StrWhiteSpaceChar: WhiteSpace and LineTerminator code points. */
  predicate IsWhiteSpace(c: char) {
    || c == '\t' || c == '\n' || c == '\U{B}' || c == '\U{C}' || c == '\r'
    || c == ' ' || c == '\U{A0}' || c == '\U{1680}' || ('\U{2000}' <= c <= '\U{200A}')
    || c == '\U{2028}' || c == '\U{2029}' || c == '\U{202F}' || c == '\U{205F}'
    || c == '\U{3000}' || c == '\U{FEFF}'
  }

  /** `s` without its leading white space. */
  function TrimStart(s: string): (t: string)
    ensures |t| <= |s| && t == s[|s| - |t|..]
    ensures t != [] ==> !IsWhiteSpace(t[0])
    ensures forall i :: 0 <= i < |s| - |t| ==> IsWhiteSpace(s[i])
  {
    if s != [] && IsWhiteSpace(s[0]) then TrimStart(s[1..]) else s
  }

  /** `s` without its trailing white space. */
  function TrimEnd(s: string): (t: string)
    ensures |t| <= |s| && t == s[..|t|]
    ensures t != [] ==> !IsWhiteSpace(t[|t| - 1])
    ensures forall i :: |t| <= i < |s| ==> IsWhiteSpace(s[i])
  {
    if s != [] && IsWhiteSpace(s[|s| - 1]) then TrimEnd(s[..|s| - 1]) else s
  }

  function Pow10(e: nat): (p: nat)
    ensures p >= 1
  {
    if e == 0 then 1 else 10 * Pow10(e - 1)
  }

  /** `parseInt(s)`: skip white space, take an optional sign, switch to radix 16 after
      `0x` or `0X`, then read the longest run of digits. `None` is `NaN`. */
  function ParseInt(s: string): Option<int> {
    var t := TrimStart(s);
    if t != [] && t[0] == '-' then Negate(ParseUnsigned(t[1..]))
    else if t != [] && t[0] == '+' then ParseUnsigned(t[1..])
    else ParseUnsigned(t)
  }

  function Negate(v: Option<int>): Option<int> {
    match v
    case None => None
    case Some(n) => Some(-n)
  }

  predicate HasHexPrefix(u: string) {
    |u| >= 2 && u[0] == '0' && (u[1] == 'x' || u[1] == 'X')
  }

  function ParseUnsigned(u: string): Option<int> {
    if HasHexPrefix(u) then DigitRun(u[2..], 16) else DigitRun(u, 10)
  }

  /** The value of the longest leading run of radix digits; `None` when there is none. */
  function DigitRun(u: string, radix: nat): Option<int> {
    var z := LeadingDigits(u, radix);
    if z == [] then None else Some(ValueOf(z, radix))
  }

  /** A JavaScript number as far as the routes can tell: `NaN`, an integer, or any other
      value (a fraction or an infinity), which no stored integer id is strictly equal to. */
  datatype Number = NaN | Integer(value: int) | NonInteger

  function NegateNumber(v: Number): Number {
    match v
    case Integer(n) => Integer(-n)
    case _ => v
  }

  /** The radix a `0x`, `0o` or `0b` literal prefix selects; 0 for any other letter. */
  function RadixPrefix(c: char): nat {
    if c == 'x' || c == 'X' then 16
    else if c == 'o' || c == 'O' then 8
    else if c == 'b' || c == 'B' then 2
    else 0
  }

  /** `Number(s)`: the StringNumericLiteral grammar, white space trimmed at both ends. */
  function ToNumber(s: string): Number {
    var t := TrimEnd(TrimStart(s));
    if t == [] then Integer(0)
    else if |t| >= 2 && t[0] == '0' && RadixPrefix(t[1]) > 0 then NonDecimalLiteral(t[2..], RadixPrefix(t[1]))
    else DecimalLiteral(t)
  }

  /** NonDecimalIntegerLiteral after its prefix: at least one digit and nothing else. */
  function NonDecimalLiteral(d: string, radix: nat): Number {
    if d != [] && AllDigitsIn(d, radix) then Integer(ValueOf(d, radix)) else NaN
  }

  /** StrDecimalLiteral: an optional sign before an unsigned decimal literal. */
  function DecimalLiteral(t: string): Number {
    if t != [] && t[0] == '-' then NegateNumber(UnsignedDecimal(t[1..]))
    else if t != [] && t[0] == '+' then UnsignedDecimal(t[1..])
    else UnsignedDecimal(t)
  }

  /** StrUnsignedDecimalLiteral: `Infinity`, or digits, an optional fraction and exponent. */
  function UnsignedDecimal(u: string): Number {
    if u == "Infinity" then NonInteger
    else
      var whole := LeadingDigits(u, 10);
      AfterWhole(whole, u[|whole|..])
  }

  function AfterWhole(whole: string, rest: string): Number {
    if rest != [] && rest[0] == '.' then
      var fraction := LeadingDigits(rest[1..], 10);
      AfterFraction(whole, fraction, rest[1 + |fraction|..])
    else AfterFraction(whole, [], rest)
  }

  function AfterFraction(whole: string, fraction: string, tail: string): Number {
    var mantissa := ValueOf(whole + fraction, 10);
    if whole == [] && fraction == [] then NaN
    else if tail == [] then Scaled(mantissa, -|fraction|)
    else if tail[0] == 'e' || tail[0] == 'E' then
      match SignedDigits(tail[1..])
      case None => NaN
      case Some(e) => Scaled(mantissa, e - |fraction|)
    else NaN
  }

  /** An exponent's SignedInteger: optional sign, then digits and nothing else. */
  function SignedDigits(e: string): Option<int> {
    var negative := e != [] && e[0] == '-';
    var ed := if e != [] && (e[0] == '-' || e[0] == '+') then e[1..] else e;
    if ed == [] || !AllDigitsIn(ed, 10) then None
    else if negative then Some(-(ValueOf(ed, 10) as int))
    else Some(ValueOf(ed, 10))
  }

  /** The number `mantissa × 10^exponent`. */
  function Scaled(mantissa: nat, exponent: int): Number {
    if exponent >= 0 then Integer(mantissa * Pow10(exponent))
    else if mantissa % Pow10(-exponent) == 0 then Integer(mantissa / Pow10(-exponent))
    else NonInteger
  }

  /** `String(n)` for an integer `n`. */
  function IntToString(n: int): string {
    if n < 0 then "-" + NatToString(-n) else NatToString(n)
  }

  predicate IsDigitString(s: string) {
    s != [] && forall i :: 0 <= i < |s| ==> IsDecimalDigit(s[i])
  }

  lemma LeadingDigitsOfDigits(s: string, radix: nat)
    requires AllDigitsIn(s, radix)
    ensures LeadingDigits(s, radix) == s
  {
  }

  lemma DigitIsNotSpaceOrSign(c: char)
    requires IsDecimalDigit(c)
    ensures !IsWhiteSpace(c) && c != '-' && c != '+' && RadixPrefix(c) == 0
  {
  }

  lemma TrimStartKeeps(s: string)
    requires s == [] || !IsWhiteSpace(s[0])
    ensures TrimStart(s) == s
  {
  }

  lemma TrimEndKeeps(s: string)
    requires s == [] || !IsWhiteSpace(s[|s| - 1])
    ensures TrimEnd(s) == s
  {
  }

  lemma ParseUnsignedOfDigits(d: string)
    requires IsDigitString(d)
    ensures ParseUnsigned(d) == Some(ValueOf(d, 10))
  {
    DecimalDigitsAreRadixTen(d);
    if |d| >= 2 {
      DigitIsNotSpaceOrSign(d[1]);
    }
    assert !HasHexPrefix(d);
    LeadingDigitsOfDigits(d, 10);
  }

  lemma UnsignedDecimalOfDigits(d: string)
    requires IsDigitString(d)
    ensures UnsignedDecimal(d) == Integer(ValueOf(d, 10))
  {
    DecimalDigitsAreRadixTen(d);
    assert d != "Infinity" by {
      assert d[0] != 'I';
    }
    LeadingDigitsOfDigits(d, 10);
    assert d[|d|..] == [];
    assert d + [] == d;
    assert AfterWhole(d, []) == AfterFraction(d, [], []);
  }

  /** `Number` of a trimmed string that does not start with a radix prefix or a sign. */
  lemma ToNumberOfDigits(d: string)
    requires IsDigitString(d)
    ensures ToNumber(d) == Integer(ValueOf(d, 10))
  {
    DigitIsNotSpaceOrSign(d[0]);
    DigitIsNotSpaceOrSign(d[|d| - 1]);
    TrimStartKeeps(d);
    TrimEndKeeps(d);
    if |d| >= 2 {
      DigitIsNotSpaceOrSign(d[1]);
    }
    UnsignedDecimalOfDigits(d);
  }

  /** On a string of decimal digits `parseInt` and `Number` agree: both read it as decimal. */
  lemma DigitStringsAgree(s: string)
    requires IsDigitString(s)
    ensures ParseInt(s) == Some(ValueOf(s, 10))
    ensures ToNumber(s) == Integer(ValueOf(s, 10))
  {
    DigitIsNotSpaceOrSign(s[0]);
    TrimStartKeeps(s);
    ParseUnsignedOfDigits(s);
    ToNumberOfDigits(s);
  }

  /** `parseInt` inverts `String` on every integer. */
  lemma ParseIntRoundTrip(n: int)
    ensures ParseInt(IntToString(n)) == Some(n)
  {
    var m: nat := if n < 0 then -n else n;
    var d := NatToString(m);
    ParseUnsignedOfDigits(d);
    if n < 0 {
      var s := "-" + d;
      TrimStartKeeps(s);
      assert s[1..] == d;
    } else {
      DigitIsNotSpaceOrSign(d[0]);
      TrimStartKeeps(d);
    }
  }

  /** `Number` inverts `String` on every integer. */
  lemma ToNumberRoundTrip(n: int)
    ensures ToNumber(IntToString(n)) == Integer(n)
  {
    if n < 0 {
      var d := NatToString(-n);
      var s := "-" + d;
      assert s == IntToString(n);
      NegativeToNumber(d);
    } else {
      ToNumberOfDigits(NatToString(n));
    }
  }

  lemma NegativeToNumber(d: string)
    requires IsDigitString(d)
    ensures ToNumber("-" + d) == Integer(-(ValueOf(d, 10) as int))
  {
    var s := "-" + d;
    DigitIsNotSpaceOrSign(d[|d| - 1]);
    assert s[|s| - 1] == d[|d| - 1];
    TrimStartKeeps(s);
    TrimEndKeeps(s);
    assert s[1..] == d;
    assert ToNumber(s) == DecimalLiteral(s);
    UnsignedDecimalOfDigits(d);
  }

  /** Digits followed by a letter that cannot continue a numeric literal: `parseInt` stops
      at the letter and yields the digits' value, while `Number` rejects the whole string. */
  lemma TrailingLetterDiverges(s: string, c: char, t: string)
    requires IsDigitString(s)
    requires ('a' <= c <= 'z' || 'A' <= c <= 'Z') && c !in "eExXoObB"
    ensures ParseInt(s + [c] + t) == Some(ValueOf(s, 10))
    ensures ToNumber(s + [c] + t) == NaN
  {
    TrailingLetterParseInt(s, c, t);
    TrailingLetterNumber(s, c, t);
  }

  lemma TrailingLetterParseInt(s: string, c: char, t: string)
    requires IsDigitString(s)
    requires ('a' <= c <= 'z' || 'A' <= c <= 'Z') && c !in "eExXoObB"
    ensures ParseInt(s + [c] + t) == Some(ValueOf(s, 10))
  {
    DigitIsNotSpaceOrSign(s[0]);
    var x := s + [c] + t;
    assert x[0] == s[0];
    TrimStartKeeps(x);
    LetterStopsDigits(s, c, t);
    assert !HasHexPrefix(x) by {
      if |s| >= 2 {
        DigitIsNotSpaceOrSign(s[1]);
        assert x[1] == s[1];
      } else {
        assert x[1] == c;
      }
    }
    assert ParseInt(x) == ParseUnsigned(x);
  }

  lemma TrailingLetterNumber(s: string, c: char, t: string)
    requires IsDigitString(s)
    requires ('a' <= c <= 'z' || 'A' <= c <= 'Z') && c !in "eExXoObB"
    ensures ToNumber(s + [c] + t) == NaN
  {
    LetterFacts(c);
    DigitIsNotSpaceOrSign(s[0]);
    var x := s + [c] + t;
    assert x[0] == s[0];
    TrimStartKeeps(x);
    var t' := TrimEndPastLetter(s, c, t);
    var y := s + [c] + t';
    assert y[0] == s[0];
    if |s| >= 2 {
      DigitIsNotSpaceOrSign(s[1]);
      assert y[1] == s[1];
    } else {
      assert y[1] == c;
    }
    ToNumberOfTrimmed(x, y);
    LetterEndsDecimal(s, c, t');
  }

  lemma LetterFacts(c: char)
    requires ('a' <= c <= 'z' || 'A' <= c <= 'Z') && c !in "eExXoObB"
    ensures !IsWhiteSpace(c) && !IsDecimalDigit(c) && RadixPrefix(c) == 0
    ensures c != '.' && c != 'e' && c != 'E'
  {
  }

  lemma ToNumberOfTrimmed(x: string, y: string)
    requires TrimEnd(TrimStart(x)) == y
    requires |y| >= 2 && RadixPrefix(y[1]) == 0
    ensures ToNumber(x) == DecimalLiteral(y)
  {
  }

  /** Trimming the end of `s + [c] + t` keeps `s + [c]` when `c` is not white space. */
  lemma TrimEndPastLetter(s: string, c: char, t: string) returns (t': string)
    requires !IsWhiteSpace(c)
    ensures TrimEnd(s + [c] + t) == s + [c] + t'
  {
    var x := s + [c] + t;
    var y := TrimEnd(x);
    assert x[|s|] == c;
    assert |y| > |s|;
    t' := y[|s| + 1..];
    assert y == x[..|y|];
    assert y == s + [c] + t';
  }

  lemma LetterEndsDecimal(s: string, c: char, t: string)
    requires IsDigitString(s)
    requires ('a' <= c <= 'z' || 'A' <= c <= 'Z') && c !in "eExXoObB"
    ensures DecimalLiteral(s + [c] + t) == NaN
  {
    LetterFacts(c);
    var y := s + [c] + t;
    assert y[0] == s[0];
    DigitIsNotSpaceOrSign(s[0]);
    assert DecimalLiteral(y) == UnsignedDecimal(y);
    assert y != "Infinity" by {
      assert y[0] != 'I';
    }
    LetterStopsDigits(s, c, t);
    assert y[|s|..] == [c] + t;
    assert UnsignedDecimal(y) == AfterWhole(s, [c] + t);
  }

  /** The decimal digit run of `s + [c] + t` is exactly `s` when `c` is not a digit. */
  lemma LetterStopsDigits(s: string, c: char, t: string)
    requires IsDigitString(s)
    requires !IsDecimalDigit(c)
    ensures LeadingDigits(s + [c] + t, 10) == s
  {
    DecimalDigitsAreRadixTen(s);
    var x := s + [c] + t;
    var p := LeadingDigits(x, 10);
    assert x[|s|] == c;
    assert x[..|s|] == s;
    assert |p| == |s|;
  }
}

=== FILE: json.dfy ===
/** JSON values as Express's body parser hands them to a route, and the handful of
    JavaScript operations the routes apply to them: `Object.keys`, property access,
    truthiness and strict equality. */
module Json {
  import opened Wrappers
  import Digits
  import KeySet

  /** A parsed JSON value. Numbers are integers (see README, "Left out"). */
  datatype Json =
    | Null
    | Bool(b: bool)
    | Num(n: int)
    | Str(s: string)
    | Arr(items: seq<Json>)
    | Obj(fields: seq<Field>)

  /** One own property of an object, in insertion order. */
  datatype Field = Field(key: string, value: Json)

  function KeysOf(fields: seq<Field>): (ks: seq<string>)
    ensures |ks| == |fields|
    ensures forall i :: 0 <= i < |fields| ==> ks[i] == fields[i].key
  {
    seq(|fields|, i requires 0 <= i < |fields| => fields[i].key)
  }

  /** No key occurs twice, as in every JavaScript object. */
  predicate DistinctKeys(fields: seq<Field>) {
    KeySet.Distinct(KeysOf(fields))
  }

  /** The value stored under `k`, or `None` (JavaScript `undefined`) when there is none. */
  function Lookup(fields: seq<Field>, k: string): (v: Option<Json>)
    ensures v.None? <==> k !in KeysOf(fields)
    ensures v.Some? ==> Field(k, v.value) in fields
    ensures DistinctKeys(fields) ==>
      forall i :: 0 <= i < |fields| && fields[i].key == k ==> v == Some(fields[i].value)
  {
    if fields == [] then None
    else
      assert KeysOf(fields) == [fields[0].key] + KeysOf(fields[1..]);
      KeySet.DistinctCons(fields[0].key, KeysOf(fields[1..]));
      if fields[0].key == k then Some(fields[0].value)
      else Lookup(fields[1..], k)
  }

  /** The property name JavaScript uses for array or string position `i`. */
  function IndexKey(i: nat): string {
    Digits.NatToString(i)
  }

  /** Reading a key from fields with `f` in front: `f` answers for its own key. */
  lemma LookupCons(f: Field, rest: seq<Field>)
    ensures KeysOf([f] + rest) == [f.key] + KeysOf(rest)
    ensures forall k :: Lookup([f] + rest, k) == if k == f.key then Some(f.value) else Lookup(rest, k)
  {
    assert ([f] + rest)[1..] == rest;
  }

  /** The own enumerable properties of a value, as `Object.entries` lists them:
      an object's fields, an array's or string's positions, nothing for the rest. */
  function Entries(j: Json): seq<Field> {
    match j
    case Obj(fields) => fields
    case Arr(items) => IndexEntries(items)
    case Str(s) => IndexEntries(seq(|s|, i requires 0 <= i < |s| => Str([s[i]])))
    case _ => []
  }

  /** Position `i` of a list under the property name `IndexKey(i)`. */
  function IndexEntries(items: seq<Json>): (es: seq<Field>)
    ensures |es| == |items|
    ensures forall i :: 0 <= i < |items| ==> es[i] == Field(IndexKey(i), items[i])
  {
    seq(|items|, i requires 0 <= i < |items| => Field(IndexKey(i), items[i]))
  }

  /** `Object.keys(j)`; `Object.keys(null)` throws, so `null` is excluded. */
  function Keys(j: Json): seq<string>
    requires !j.Null?
  {
    KeysOf(Entries(j))
  }

  /** `j[k]` for an own property `k` (none of the names the routes read is inherited). */
  function Prop(j: Json, k: string): Option<Json> {
    Lookup(Entries(j), k)
  }

  /** An object's properties are its own fields. */
  lemma ObjectProps(j: Json)
    requires j.Obj?
    ensures forall k :: Prop(j, k) == Lookup(j.fields, k)
  {
  }

  /** A property read that can throw: reading any property of `undefined` or `null` does. */
  datatype Access = Throws | Got(v: Option<Json>)

  function Member(v: Option<Json>, k: string): Access {
    match v
    case None => Throws
    case Some(Null) => Throws
    case Some(x) => Got(Prop(x, k))
  }

  /** JavaScript truthiness; `None` is `undefined`. */
  predicate Truthy(v: Option<Json>) {
    match v
    case None => false
    case Some(Null) => false
    case Some(Bool(b)) => b
    case Some(Num(n)) => n != 0
    case Some(Str(s)) => s != ""
    case Some(_) => true
  }

  /** `a === b` for values parsed or stored separately: primitives compare by value,
      arrays and objects by identity, so two distinct ones are never equal. */
  predicate StrictEquals(a: Json, b: Json) {
    match a
    case Arr(_) => false
    case Obj(_) => false
    case _ => a == b
  }

  /** `a === b` where either side may be `undefined`. */
  predicate StrictEqualsOpt(a: Option<Json>, b: Option<Json>) {
    match (a, b)
    case (None, None) => true
    case (Some(x), Some(y)) => StrictEquals(x, y)
    case _ => false
  }

  /** `x === s` for a string `s` and a read `x` that may have thrown; a throw is no match. */
  predicate ReadEquals(a: Access, s: string) {
    match a
    case Throws => false
    case Got(v) => StrictEqualsOpt(Some(Str(s)), v)
  }

  /** A string is `===` exactly the same string. */
  lemma ReadEqualsMeans(a: Access, s: string)
    ensures ReadEquals(a, s) <==> a == Got(Some(Str(s)))
  {
    if a.Got? && a.v.Some? {
      assert StrictEquals(Str(s), a.v.value) <==> a.v.value == Str(s);
    }
  }

  /** What `JSON.parse` can produce: every object has distinct keys, all the way down. */
  predicate WellFormed(j: Json) {
    match j
    case Arr(items) => forall i :: 0 <= i < |items| ==> WellFormed(items[i])
    case Obj(fields) => DistinctKeys(fields) && forall i :: 0 <= i < |fields| ==> WellFormed(fields[i].value)
    case _ => true
  }

  /** What `express.json()` in its default strict mode puts in `req.body`. */
  predicate IsBody(j: Json) {
    (j.Obj? || j.Arr?) && WellFormed(j)
  }

  /** Own property names are distinct for every well-formed value, arrays included. */
  lemma EntriesDistinct(j: Json)
    requires WellFormed(j)
    ensures DistinctKeys(Entries(j))
  {
    if j.Arr? || j.Str? {
      IndexEntriesDistinct(j);
    }
  }

  lemma IndexEntriesDistinct(j: Json)
    requires j.Arr? || j.Str?
    ensures DistinctKeys(Entries(j))
  {
    var es := Entries(j);
    forall a, b | 0 <= a < b < |es|
      ensures es[a].key != es[b].key
    {
      Digits.NatToStringInjective(a, b);
    }
  }

  /** `items[i]` on an array: the element at a position inside it, `undefined` past its end. */
  lemma PropAtIndex(items: seq<Json>, i: nat)
    ensures Prop(Arr(items), IndexKey(i)) == if i < |items| then Some(items[i]) else None
  {
    var es := Entries(Arr(items));
    IndexEntriesDistinct(Arr(items));
    if i >= |items| {
      forall m | 0 <= m < |es|
        ensures KeysOf(es)[m] != IndexKey(i)
      {
        Digits.NatToStringInjective(m, i);
      }
    } else {
      assert es[i].key == IndexKey(i);
    }
  }

  /** An array index name starts with a decimal digit. */
  lemma IndexKeysAreNumeric(j: Json, k: string)
    requires j.Arr? || j.Str?
    requires k in Keys(j)
    ensures k != [] && Digits.IsDecimalDigit(k[0])
  {
    var i :| 0 <= i < |Keys(j)| && Keys(j)[i] == k;
    assert k == IndexKey(i);
  }
}

=== FILE: key_set.dfy ===
/** The exact-key-set check the create, update and register routes apply to
    `Object.keys(req.body)` against a fixed list of expected names. The source
    writes it in two ways; both are set equality once the lists have no repeats,
    which is always so for the keys of a JavaScript object. */
module KeySet {

  predicate Distinct<T(==)>(s: seq<T>) {
    forall i, j :: 0 <= i < j < |s| ==> s[i] != s[j]
  }

  lemma DistinctCons<T>(x: T, rest: seq<T>)
    ensures Distinct([x] + rest) <==> x !in rest && Distinct(rest)
  {
    var s := [x] + rest;
    assert forall i :: 0 <= i < |rest| ==> s[i + 1] == rest[i];
    if Distinct(s) {
      forall k | 0 <= k < |rest|
        ensures rest[k] != x
      {
        assert s[0] != s[k + 1];
      }
      forall i, j | 0 <= i < j < |rest|
        ensures rest[i] != rest[j]
      {
        assert s[i + 1] != s[j + 1];
      }
    }
    if x !in rest && Distinct(rest) {
      forall i, j | 0 <= i < j < |s|
        ensures s[i] != s[j]
      {
        if i > 0 {
          assert s[i] == rest[i - 1] && s[j] == rest[j - 1];
        }
      }
    }
  }

  lemma DistinctSnoc<T>(s: seq<T>, x: T)
    ensures Distinct(s + [x]) <==> x !in s && Distinct(s)
  {
    var t := s + [x];
    assert forall i :: 0 <= i < |s| ==> t[i] == s[i];
    if Distinct(t) {
      forall k | 0 <= k < |s|
        ensures s[k] != x
      {
        assert t[k] != t[|s|];
      }
      forall i, j | 0 <= i < j < |s|
        ensures s[i] != s[j]
      {
        assert t[i] != t[j];
      }
    }
  }

  function SetOf<T(==)>(s: seq<T>): set<T> {
    set x | x in s
  }

  /** `expected.every(k => received.includes(k)) && received.length === expected.length` */
  predicate ExpectedAllReceived<T(==)>(expected: seq<T>, received: seq<T>) {
    (forall k :: k in expected ==> k in received) && |received| == |expected|
  }

  /** `received.every(k => expected.includes(k)) && received.length === expected.length` */
  predicate ReceivedAllExpected<T(==)>(expected: seq<T>, received: seq<T>) {
    (forall k :: k in received ==> k in expected) && |received| == |expected|
  }

  /** A list without repeats has as many distinct elements as entries. */
  lemma {:induction false} DistinctCardinality<T>(s: seq<T>)
    requires Distinct(s)
    ensures |SetOf(s)| == |s|
  {
    if s != [] {
      var rest := s[1..];
      assert Distinct(rest);
      DistinctCardinality(rest);
      assert SetOf(s) == {s[0]} + SetOf(rest);
      assert s[0] !in SetOf(rest);
    }
  }

  /** A list never has more distinct elements than entries. */
  lemma {:induction false} CardinalityBound<T>(s: seq<T>)
    ensures |SetOf(s)| <= |s|
  {
    if s != [] {
      CardinalityBound(s[1..]);
      assert SetOf(s) == {s[0]} + SetOf(s[1..]);
    }
  }

  /** A subset at least as large as its superset is the whole superset. */
  lemma SubsetOfEqualSize<T>(a: set<T>, b: set<T>)
    requires a <= b && |a| >= |b|
    ensures a == b
  {
    assert b == a + (b - a);
    assert |b - a| == 0;
  }

  lemma MembersAreSubset<T>(a: seq<T>, b: seq<T>)
    requires forall k :: k in a ==> k in b
    ensures SetOf(a) <= SetOf(b)
  {
  }

  /** The `expected.every(...)` form is set equality as soon as `expected` has no repeats;
      `received` needs no such assumption for the forward direction. */
  lemma ExpectedFormIsSetEquality<T>(expected: seq<T>, received: seq<T>)
    requires Distinct(expected)
    ensures ExpectedAllReceived(expected, received) ==> SetOf(expected) == SetOf(received)
    ensures Distinct(received) && SetOf(expected) == SetOf(received) ==> ExpectedAllReceived(expected, received)
  {
    DistinctCardinality(expected);
    CardinalityBound(received);
    if ExpectedAllReceived(expected, received) {
      MembersAreSubset(expected, received);
      SubsetOfEqualSize(SetOf(expected), SetOf(received));
    }
    if Distinct(received) && SetOf(expected) == SetOf(received) {
      DistinctCardinality(received);
      forall k | k in expected
        ensures k in received
      {
        assert k in SetOf(expected);
      }
    }
  }

  /** The `received.every(...)` form is set equality when both lists have no repeats. */
  lemma ReceivedFormIsSetEquality<T>(expected: seq<T>, received: seq<T>)
    requires Distinct(expected) && Distinct(received)
    ensures ReceivedAllExpected(expected, received) <==> SetOf(expected) == SetOf(received)
  {
    DistinctCardinality(expected);
    DistinctCardinality(received);
    if ReceivedAllExpected(expected, received) {
      MembersAreSubset(received, expected);
      SubsetOfEqualSize(SetOf(received), SetOf(expected));
    }
    if SetOf(expected) == SetOf(received) {
      forall k | k in received
        ensures k in expected
      {
        assert k in SetOf(received);
      }
    }
  }

  /** So the two forms accept exactly the same key lists. */
  lemma FormsAgree<T>(expected: seq<T>, received: seq<T>)
    requires Distinct(expected) && Distinct(received)
    ensures ExpectedAllReceived(expected, received) <==> ReceivedAllExpected(expected, received)
  {
    ExpectedFormIsSetEquality(expected, received);
    ReceivedFormIsSetEquality(expected, received);
  }

  /** Either form accepts every reordering of the expected names. */
  lemma PermutationAccepted<T>(expected: seq<T>, received: seq<T>)
    requires Distinct(expected)
    requires multiset(received) == multiset(expected)
    ensures ExpectedAllReceived(expected, received) && ReceivedAllExpected(expected, received)
  {
    assert |received| == |multiset(received)| == |multiset(expected)| == |expected|;
    forall k | k in expected
      ensures k in received
    {
      assert k in multiset(expected);
    }
    forall k | k in received
      ensures k in expected
    {
      assert k in multiset(received);
    }
  }

  /** Without distinct received keys the second form is not set equality: a list that
      repeats one expected name passes it. */
  lemma ReceivedFormNeedsDistinctKeys()
    ensures ReceivedAllExpected(["email", "password"], ["email", "email"])
    ensures SetOf(["email", "password"]) != SetOf(["email", "email"])
  {
    assert "password" in SetOf(["email", "password"]);
    assert "password" !in SetOf(["email", "email"]);
  }
}

=== FILE: request.dfy ===
/** What every route does with its request before touching a collection: turning the
    `:id` path parameter into a query value, and checking `Object.keys(req.body)`
    against the expected names. */
module Request {
  import opened Wrappers
  import opened Json
  import opened Http
  import opened JsNumbers
  import KeySet
  import opened Collection

  /** The query value `{ id: parseInt(req.params.id) }`: it selects exactly the records whose
      id is the parsed integer, and nothing at all when `parseInt` gives `NaN`. */
  function IdProbe(id: Option<int>): (p: Probe)
    ensures forall doc :: Matches(doc, "id", p) <==> id.Some? && HasId(doc, id.value)
    ensures id.Some? ==> p == Value(Num(id.value))
  {
    match id
    case Some(n) => Value(Num(n))
    case None => Probe.NaN
  }

  /** The query value `{ id: Number(req.params.id) }`: only an integral result can equal a
      stored id; `NaN`, `Infinity` and fractions match nothing. */
  function NumberProbe(n: Number): (p: Probe)
    ensures forall doc :: Matches(doc, "id", p) <==> n.Integer? && HasId(doc, n.value)
    ensures n.Integer? ==> p == Value(Num(n.value))
  {
    match n
    case Integer(v) => Value(Num(v))
    case _ => Probe.NaN
  }

  /** The document stores a record whose `id` is the integer `n`. */
  predicate HasId(doc: Json, n: int) {
    doc.Obj? && Prop(doc, "id") == Some(Num(n))
  }

  /** An integer query value selects exactly the records with that id. */
  lemma IdQueryMatches(doc: Json, n: int)
    ensures Matches(doc, "id", Value(Num(n))) <==> HasId(doc, n)
  {
  }

  /** Some stored record has id `n`. */
  predicate Stored(c: Collection, n: int) {
    exists i :: 0 <= i < |c.docs| && HasId(c.docs[i], n)
  }

  /** Querying by the integer `n` finds something exactly when a record with id `n` is stored. */
  lemma StoredIffFound(c: Collection, n: int)
    ensures Stored(c, n) <==> FindOne(c, "id", Value(Num(n))).Some?
  {
    if Stored(c, n) {
      var i :| 0 <= i < |c.docs| && HasId(c.docs[i], n);
      IdQueryMatches(c.docs[i], n);
    }
  }

  /** The position of the first record with id `n`: the record every id route acts on. */
  function FirstWithId(c: Collection, n: int): (i: nat)
    requires Stored(c, n)
    ensures FirstMatch(c.docs, "id", Value(Num(n))) == Some(i)
    ensures i < |c.docs| && HasId(c.docs[i], n)
    ensures forall j :: 0 <= j < i ==> !HasId(c.docs[j], n)
  {
    StoredIffFound(c, n);
    var i := FirstMatch(c.docs, "id", Value(Num(n))).value;
    IdQueryMatches(c.docs[i], n);
    forall j | 0 <= j < i
      ensures !HasId(c.docs[j], n)
    {
      IdQueryMatches(c.docs[j], n);
    }
    i
  }

  /** `findOne({ id: Number(req.params.id) })`: a record exactly when the converted id is an
      integer some record stores, and then the first record with that id. */
  function FindByNumber(c: Collection, num: Number): (r: Option<Json>)
    ensures r.Some? <==> num.Integer? && Stored(c, num.value)
    ensures r.Some? ==> r.value in c.docs && HasId(r.value, num.value)
    ensures r.Some? ==> r.value == FindOne(c, "id", NumberProbe(num)).value
  {
    if num.Integer? then StoredIffFound(c, num.value);
      FindOne(c, "id", NumberProbe(num))
    else None
  }

  /** `deleteOne({ id: parseInt(req.params.id) })`: it throws "No matching item found" exactly
      when the id is `NaN` or no record stores it, and otherwise removes the first record with
      that id. */
  function DeleteById(c: Collection, id: Option<int>): (r: Result<Collection, Error>)
    ensures r.Failure? <==> id.None? || !Stored(c, id.value)
    ensures r.Failure? ==> r.error == Error(None, NoMatchingItem)
    ensures r.Success? ==>
      r.value.docs == Without(c.docs, FirstWithId(c, id.value))
  {
    if id.Some? then StoredIffFound(c, id.value);
      DeleteOne(c, "id", IdProbe(id))
    else DeleteOne(c, "id", IdProbe(id))
  }

  /** The set of own property names of a request body. */
  function KeySetOf(body: Json): set<string>
    requires !body.Null?
  {
    KeySet.SetOf(Keys(body))
  }

  /** `expected.every(k => receivedKeys.includes(k)) && receivedKeys.length === expected.length`
      accepts a parsed body exactly when its key set is `expected`'s. */
  lemma ExpectedFormChecksKeys(body: Json, expected: seq<string>)
    requires IsBody(body)
    requires KeySet.Distinct(expected)
    ensures KeySet.ExpectedAllReceived(expected, Keys(body)) <==> KeySetOf(body) == KeySet.SetOf(expected)
  {
    EntriesDistinct(body);
    KeySet.ExpectedFormIsSetEquality(expected, Keys(body));
  }

  /** `receivedKeys.every(k => expected.includes(k)) && receivedKeys.length === expected.length`
      accepts a parsed body exactly when its key set is `expected`'s. */
  lemma ReceivedFormChecksKeys(body: Json, expected: seq<string>)
    requires IsBody(body)
    requires KeySet.Distinct(expected)
    ensures KeySet.ReceivedAllExpected(expected, Keys(body)) <==> KeySetOf(body) == KeySet.SetOf(expected)
  {
    EntriesDistinct(body);
    KeySet.ReceivedFormIsSetEquality(expected, Keys(body));
  }

  /** A body with a named key is an object (arrays only have index keys), and the key's
      value is present. */
  lemma NamedKeyMeansObject(body: Json, k: string)
    requires IsBody(body)
    requires k in KeySetOf(body)
    requires k == [] || !('0' <= k[0] <= '9')
    ensures body.Obj?
    ensures Prop(body, k).Some?
  {
    if body.Arr? {
      IndexKeysAreNumeric(body, k);
    }
  }

  /** `updateOne({ id: n }, { $set: body })` on a stored id rewrites the first record with
      that id and no other: each of the body's keys takes the body's value, every other
      property keeps its own. */
  lemma UpdateById(c: Collection, n: int, body: Json)
    requires IsBody(body)
    requires Stored(c, n)
    ensures DistinctKeys(Entries(body))
    ensures
      var r := UpdateOne(c, "id", Value(Num(n)), Entries(body));
      var i := FirstWithId(c, n);
      && r.matchedCount != 0 && r.modifiedCount != 0
      && |r.store.docs| == |c.docs|
      && (forall j :: 0 <= j < |c.docs| && j != i ==> r.store.docs[j] == c.docs[j])
      && r.store.docs[i].Obj?
      && forall k :: Prop(r.store.docs[i], k) == if k in KeySetOf(body) then Prop(body, k) else Prop(c.docs[i], k)
  {
    EntriesDistinct(body);
    StoredIffFound(c, n);
  }
}

=== FILE: schema.dfy ===
/** The subset of JSON Schema that the books service compiles with ajv
    (`type`, `properties`, `required`, `additionalProperties`, `items`,
    `minItems`, `maxItems`), an interpreter for it, and the security-questions
    schema itself. */
module Schema {
  import opened Wrappers
  import opened Json
  import KeySet

  datatype JsonType = ObjectType | ArrayType | StringType

  datatype Property = Property(name: string, schema: Schema)

  datatype Schema = Schema(
    typ: Option<JsonType>,
    properties: seq<Property>,
    required: seq<string>,
    additionalProperties: bool,
    items: Option<Schema>,
    minItems: Option<nat>,
    maxItems: Option<nat>)

  /** JSON Schema's `type`: "object" excludes arrays and null. */
  predicate HasType(t: JsonType, j: Json) {
    match t
    case ObjectType => j.Obj?
    case ArrayType => j.Arr?
    case StringType => j.Str?
  }

  function PropertyNames(ps: seq<Property>): seq<string> {
    seq(|ps|, i requires 0 <= i < |ps| => ps[i].name)
  }

  /** Whether `j` satisfies `s`. Object keywords apply only to objects and array keywords
      only to arrays, as in ajv. */
  predicate Valid(s: Schema, j: Json)
    decreases s
  {
    && (s.typ.None? || HasType(s.typ.value, j))
    && (j.Obj? ==>
          && (forall r :: r in s.required ==> r in KeysOf(j.fields))
          && (s.additionalProperties || forall k :: k in KeysOf(j.fields) ==> k in PropertyNames(s.properties))
          && (forall i, f :: 0 <= i < |s.properties| && f in j.fields && f.key == s.properties[i].name ==>
                Valid(s.properties[i].schema, f.value)))
    && (j.Arr? ==>
          && (s.minItems.None? || |j.items| >= s.minItems.value)
          && (s.maxItems.None? || |j.items| <= s.maxItems.value)
          && (s.items.None? || forall i :: 0 <= i < |j.items| ==> Valid(s.items.value, j.items[i])))
  }

  const StringSchema := Schema(Some(StringType), [], [], true, None, None, None)

  /** `{ type: "object", properties: { answer: { type: "string" } }, required: ["answer"],
      additionalProperties: false }` */
  const AnswerSchema := Schema(Some(ObjectType), [Property("answer", StringSchema)], ["answer"], false, None, None, None)

  /** The array of exactly three answers. */
  const QuestionsSchema := Schema(Some(ArrayType), [], [], true, Some(AnswerSchema), Some(3), Some(3))

  /** `securityQuestionsSchema`: an object whose only, required property is that array. */
  const SecurityQuestionsSchema :=
    Schema(Some(ObjectType), [Property("securityQuestions", QuestionsSchema)], ["securityQuestions"], false, None, None, None)

  /** `{ answer: <string> }` and nothing else. */
  predicate IsAnswer(j: Json) {
    j.Obj? && |j.fields| == 1 && j.fields[0].key == "answer" && j.fields[0].value.Str?
  }

  /** `{ securityQuestions: [a, b, c] }` with three answers and nothing else. */
  predicate IsSecurityQuestionsBody(j: Json) {
    && j.Obj? && |j.fields| == 1 && j.fields[0].key == "securityQuestions"
    && j.fields[0].value.Arr? && |j.fields[0].value.items| == 3
    && forall i :: 0 <= i < 3 ==> IsAnswer(j.fields[0].value.items[i])
  }

  /** The three submitted answers, in order. */
  function ProvidedAnswers(j: Json): (a: seq<string>)
    requires IsSecurityQuestionsBody(j)
    ensures |a| == 3
  {
    var items := j.fields[0].value.items;
    [items[0].fields[0].value.s, items[1].fields[0].value.s, items[2].fields[0].value.s]
  }

  /** An object with distinct keys whose every key is `k`, and which has `k`, has one field. */
  lemma OnlyKey(fields: seq<Field>, k: string)
    requires DistinctKeys(fields)
    requires k in KeysOf(fields)
    requires forall x :: x in KeysOf(fields) ==> x == k
    ensures |fields| == 1 && fields[0].key == k
  {
    var ks := KeysOf(fields);
    KeySet.DistinctCardinality(ks);
    assert KeySet.SetOf(ks) == {k};
  }

  lemma AnswerSchemaIsShape(j: Json)
    requires WellFormed(j)
    ensures Valid(AnswerSchema, j) <==> IsAnswer(j)
  {
    if Valid(AnswerSchema, j) {
      assert PropertyNames(AnswerSchema.properties) == ["answer"];
      OnlyKey(j.fields, "answer");
      assert j.fields[0] in j.fields;
      assert Valid(StringSchema, j.fields[0].value);
    }
    if IsAnswer(j) {
      assert KeysOf(j.fields) == ["answer"];
      assert PropertyNames(AnswerSchema.properties) == ["answer"];
    }
  }

  lemma ValidIsShape(j: Json)
    requires WellFormed(j) && Valid(SecurityQuestionsSchema, j)
    ensures IsSecurityQuestionsBody(j)
  {
    assert PropertyNames(SecurityQuestionsSchema.properties) == ["securityQuestions"];
    OnlyKey(j.fields, "securityQuestions");
    assert j.fields[0] in j.fields;
    var q := j.fields[0].value;
    assert Valid(QuestionsSchema, q);
    assert WellFormed(q);
    forall i | 0 <= i < 3
      ensures IsAnswer(q.items[i])
    {
      AnswerSchemaIsShape(q.items[i]);
    }
  }

  lemma ShapeIsValid(j: Json)
    requires WellFormed(j) && IsSecurityQuestionsBody(j)
    ensures Valid(SecurityQuestionsSchema, j)
  {
    assert PropertyNames(SecurityQuestionsSchema.properties) == ["securityQuestions"];
    assert KeysOf(j.fields) == ["securityQuestions"];
    var q := j.fields[0].value;
    forall i | 0 <= i < |q.items|
      ensures Valid(AnswerSchema, q.items[i])
    {
      AnswerSchemaIsShape(q.items[i]);
    }
    assert Valid(QuestionsSchema, q);
    forall i, f | 0 <= i < |SecurityQuestionsSchema.properties| && f in j.fields && f.key == SecurityQuestionsSchema.properties[i].name
      ensures Valid(SecurityQuestionsSchema.properties[i].schema, f.value)
    {
      assert f == j.fields[0];
    }
  }

  /** ajv accepts a parsed body under `securityQuestionsSchema` exactly when it is
      `{ securityQuestions: [ {answer}, {answer}, {answer} ] }` with string answers. */
  lemma SchemaIsShape(j: Json)
    requires WellFormed(j)
    ensures Valid(SecurityQuestionsSchema, j) <==> IsSecurityQuestionsBody(j)
  {
    if Valid(SecurityQuestionsSchema, j) {
      ValidIsShape(j);
    }
    if IsSecurityQuestionsBody(j) {
      ShapeIsValid(j);
    }
  }
}

=== FILE: wrappers.dfy ===
/** Failure-compatible datatypes used throughout the model. */
module Wrappers {

  /** A value that may be absent: JavaScript's `undefined`, a missing record, `NaN`. */
  datatype Option<+T> = None | Some(value: T)

  /** The outcome of a call that may throw: `Failure` carries what was thrown. */
  datatype Result<+R, +E> = Success(value: R) | Failure(error: E)
}
